=== FILE: README.md ===
# CandidateHub core in Dafny

CandidateHub is a CRUD service for job candidates. It has one entity and three service
operations:
- create-or-update by e-mail;
- look up by e-mail;
- list all.

This project models the logic below those operations in Dafny and proves properties of the model:

- **Text**: `string.Trim`, `string.ToLowerInvariant`, the blank test of `[Required]`, and a
  string's length in UTF-16 code units, which is what `[MaxLength]` and the columns count.
- **Validation, Domain, Dtos**: the data-annotation rules of `Candidate` and `CandidateDto`, and how
  the .NET validator collects one error list per object. `Required` goes first and hides the other
  attributes of the same property. A null value passes every attribute except `Required`. Every
  failing property is reported. The phone pattern `^\+?[1-9]\d{1,14}$` is a character-class
  predicate, with a loop that matches it.
- **Mapping**: the Mapperly `ToEntity` / `ToDto` field copies and their round trips.
- **ChangeTracker**: the part of EF Core the unit of work relies on:
  - the tracker's entries (entity, state), keyed by the entity's id;
  - `SaveChanges` as an all-or-nothing application of Added/Modified/Deleted entries to the rows.
    It fails on a database fault, a Modified/Deleted target that is not stored (EF's concurrency
    error), a value wider than its column, a duplicate key, or a duplicate e-mail (the unique
    index on `Email`). The column widths are the `[MaxLength]` values of `Candidate` and
    `HasMaxLength(150)` on `Email`, counted in UTF-16 code units as `nvarchar(n)` counts them.
- **UnitOfWork**:
  - the memoised `Repository<T>()` cache;
  - `CommitAsync`. It saves inside an ambient transaction when one is open. Otherwise it opens a
    transaction, saves and commits, or rolls back and re-raises the error.
  - `Rollback`, which maps each entry's state. The unit of work is a `State` value: committed
    rows, an optional open transaction, the tracker and the repository cache.
- **GenericRepository**:
  - the queries `GetAllAsync`, `FindAllAsync`, `FindAsync` and `AnyAsync`;
  - `Filter` with LINQ `Skip`/`Take` paging and C# 32-bit arithmetic for the page offset;
  - the staging operations `AddAsync`, `Update` and `Delete`.
- **CandidateRepository**: `GetByEmailAsync`, a case-insensitive first match without trimming,
  and SQL Server's trailing-space padding of `=`, with the condition under which the two agree.
- **CandidateService**:
  - `CreateOrUpdateCandidateAsync`: normalise the e-mail, find the first case-insensitive match,
    then insert or overwrite in place, then commit.
  - `GetCandidateByEmailAsync` and `GetAllCandidatesAsync`, which re-raise a failing read.

  These are proved against an independent description of their effect (`UpsertedRows`,
  `UpsertedDto`). The proofs cover:
  - idempotence on the e-mail;
  - write-then-read;
  - create-then-list;
  - what the create and update branches leave unchanged.

Inputs the program takes from its environment are parameters:
- the clock (`now`);
- the key EF generates on insert (`newId`);
- whether the database fails on its own (`fault`);
- the `[EmailAddress]` format check (`isEmail`).

Three details of the code shape the model:
- **The update branch does not re-assign the normalised e-mail.** It overwrites the seven
  editable fields and the update time only (`CandidateService.cs:39-46`). The stored e-mail, and
  the returned DTO's e-mail, stay as they were stored.
- **A miss gives no result, not an empty placeholder.** `GetCandidateByEmailAsync` returns null
  on a miss. `GetAllCandidatesAsync` returns null for an empty store, not an empty list
  (`CandidateService.cs:68-71, 86-89`).
- **There is no cache.** The service shown has no cache, so nothing about cache invalidation is
  modelled. The service tests mock a cache and describe a different version of the service.

## Model

| member | source | states |
|---|---|---|
| Text.Trim | CandidateHub.Application/Services/CandidateService.cs:22 | the trimmed string has no white space at either end and is no longer than the input |
| Text.TrimKeepsMiddle | CandidateHub.Application/Services/CandidateService.cs:22 | trimming gives the empty string exactly for blank input; the result is the input with a blank prefix and a blank suffix removed |
| Text.TrimAroundTrimmed | CandidateHub.Application/Services/CandidateService.cs:22 | trimming a blank run, a trimmed non-empty middle and a blank run gives back the middle |
| Text.TrimOfTrimmed | CandidateHub.Application/Services/CandidateService.cs:22 | a string with no white space at its ends is left unchanged by trimming |
| Text.TrimIdempotent | CandidateHub.Application/Services/CandidateService.cs:22 | trimming twice is trimming once |
| Text.ToLowerInvariant | CandidateHub.Application/Services/CandidateService.cs:22 | lower-casing keeps the length and lower-cases each character on its own |
| Text.LowerIdempotent | CandidateHub.Application/Services/CandidateService.cs:22 | lower-casing twice is lower-casing once |
| Text.LowerKeepsTrimmed | CandidateHub.Application/Services/CandidateService.cs:22 | lower-casing a trimmed string leaves it trimmed |
| Text.Utf16Length | CandidateHub.Domain/Entities/Candidate.cs:13-40 | a string's length in UTF-16 code units is at least its number of characters and at most twice that |
| Text.Utf16LengthOfBmp | CandidateHub.Domain/Entities/Candidate.cs:13-40 | a string with no character above U+FFFF has one code unit per character |
| Text.Utf16LengthOfAstral | CandidateHub.Domain/Entities/Candidate.cs:13-40 | a string of characters above U+FFFF has two code units per character |
| Validation.MatchPhone | CandidateHub.Domain/Entities/Candidate.cs:28 | the scan accepts exactly the strings of the form optional `+`, a digit 1-9, then 1 to 14 digits |
| Validation.PhonePatternBoundsLength | CandidateHub.Domain/Entities/Candidate.cs:27-28 | every phone the pattern accepts has at most 16 characters, all below U+FFFF, so it is at most 16 code units and the 20-unit limit never rejects it |
| Validation.RequiredIsTrimTest | CandidateHub.Domain/Entities/Candidate.cs:13-15 | `[Required]` accepts a string exactly when it is not empty after trimming |
| Validation.AllSatisfiedPair | CandidateHub.Domain/Entities/Candidate.cs:21-24 | a property with two attributes is valid exactly when each attribute holds |
| Validation.Failing | CandidateHub.Tests/Unit_Tests/Domain/Entities/CandidateTests.cs:8-15 | the errors of one property are exactly the attributes it breaks, none when it keeps all of them |
| Validation.PropertyErrors | CandidateHub.Tests/Unit_Tests/Domain/Entities/CandidateTests.cs:8-15 | a null or blank required property gives the single `Required` error; a property has no error exactly when it is present if required and keeps its other attributes |
| Validation.HasErrorOfProperty | CandidateHub.Tests/Unit_Tests/Domain/Entities/CandidateTests.cs:8-15 | the errors of one property name that property and no other, and name it exactly when there are any |
| Validation.HasErrorAppend | CandidateHub.Tests/Unit_Tests/Domain/Entities/CandidateTests.cs:8-15 | a property is named in two joined error lists exactly when it is named in one of them |
| Domain.PreferenceFromCode | CandidateHub.Domain/Enums/TimeIntervalPreference.cs:9-15 | a stored byte names a preference exactly when it is 1 to 4 |
| Domain.PreferenceCodeRoundTrip | CandidateHub.Domain/Enums/TimeIntervalPreference.cs:9-15 | decoding a preference's byte gives the preference back, and no two preferences share a byte |
| Domain.MemberErrors | CandidateHub.Domain/Entities/Candidate.cs:13-40 | the errors for one entity property name only that property and are empty exactly when its constraints hold, lengths counted in UTF-16 code units |
| Domain.ValidateCandidate | CandidateHub.Domain/Entities/Candidate.cs:13-40 | the entity's error list names a property exactly when that property breaks a constraint, and is empty exactly when the entity is valid |
| Domain.CollectPropertyErrors | CandidateHub.Tests/Unit_Tests/Domain/Entities/CandidateTests.cs:8-15 | joining every property's errors reports every failing property, not only the first |
| Domain.HasErrorOfMember | CandidateHub.Domain/Entities/Candidate.cs:13-40 | property `m'`'s errors name `m` exactly when `m' == m` and `m` is invalid |
| Domain.NoErrorsIffValid | CandidateHub.Tests/Unit_Tests/Domain/Entities/CandidateTests.cs:8-15 | an error list that names exactly the invalid properties is empty exactly when the entity is valid |
| Domain.MalformedPhoneOneError | CandidateHub.Domain/Entities/Candidate.cs:26-29 | a non-blank phone within 20 code units that breaks the pattern gives exactly one error, the pattern error |
| Domain.BlankNameAndBadPhoneGiveTwoErrors | CandidateHub.Tests/Unit_Tests/Domain/Entities/CandidateTests.cs:8-15 | a blank first name and a malformed phone give two errors, one per property, in declaration order |
| Domain.LettersAreNotAPhone | CandidateHub.Tests/Unit_Tests/Domain/Entities/CandidateTests.cs:36-49 | "InvalidPhone123" is rejected by the phone pattern |
| Domain.SampleCandidateIsValid | CandidateHub.Tests/Unit_Tests/Domain/Entities/CandidateTests.cs:52-64 | the sample candidate with phone "+201061103073" validates with no errors |
| Domain.SamplePhoneValid | CandidateHub.Tests/Unit_Tests/Domain/Entities/CandidateTests.cs:52-64 | the sample phone "+201061103073" is non-blank, within 20 code units and matches the pattern |
| Domain.AstralNameTooLong | CandidateHub.Domain/Entities/Candidate.cs:13-15 | a first name of 100 emoji is 200 code units, so it breaks `[MaxLength(100)]` and gets exactly that error |
| Domain.ValidFitsColumns | CandidateHub.Domain/Entities/Candidate.cs:13-40 | a candidate that passes validation fits every column of the table |
| Dtos.DtoMemberErrors | CandidateHub.Application/DTOs/CandidateDto.cs:14-35 | the errors for one DTO property name only that property and are empty exactly when its constraints hold |
| Dtos.ValidateDto | CandidateHub.Application/DTOs/CandidateDto.cs:14-35 | the DTO's error list names a property exactly when that property breaks a constraint, and is empty exactly when the DTO is valid |
| Dtos.HasDtoErrorOfMember | CandidateHub.Application/DTOs/CandidateDto.cs:14-35 | property `m'`'s errors name `m` exactly when `m' == m` and `m` is invalid |
| Dtos.CollectDtoErrors | CandidateHub.Application/DTOs/CandidateDto.cs:14-35 | joining the four validated properties' errors reports every failing property |
| Dtos.NoDtoErrorsIffValid | CandidateHub.Application/DTOs/CandidateDto.cs:14-35 | an error list that names exactly the invalid DTO properties is empty exactly when the DTO is valid |
| Dtos.DefaultDtoFailsRequiredFields | CandidateHub.Application/DTOs/CandidateDto.cs:14-27 | a default DTO fails `Required` on first name, last name, e-mail and phone, and on nothing else |
| Mapping.ToEntity | CandidateHub.Application/Mappings/MappingProfile.cs:10-13 | the new entity's key, creation time and update time are left at their defaults |
| Mapping.ToDto | CandidateHub.Application/Mappings/MappingProfile.cs:15-18 | the DTO carries the entity's eight shared members (names, e-mail, phone, call-time preference, the two URLs, comments) and nothing of its key or timestamps |
| Mapping.DtoRoundTrip | CandidateHub.Application/Mappings/MappingProfile.cs:10-18 | mapping a DTO to an entity and back gives the same DTO |
| Mapping.EntityRoundTrip | CandidateHub.Application/Mappings/MappingProfile.cs:10-18 | mapping an entity to a DTO and back gives the entity with its key and timestamps reset |
| Mapping.ToDtoIgnoresBookkeeping | CandidateHub.Application/Mappings/MappingProfile.cs:15-18 | two entities map to the same DTO exactly when they agree on everything except key and timestamps |
| Mapping.ValidEntityGivesValidDto | CandidateHub.Application/Mappings/MappingProfile.cs:15-18 | a valid entity maps to a valid DTO |
| Mapping.ValidDtoMayGiveInvalidEntity | CandidateHub.Application/Mappings/MappingProfile.cs:10-13 | a DTO with a 101-character first name is valid, yet its entity is not |
| ChangeTracker.Lookup | CandidateHub.Infrastructure/Repos/UnitOfWork.cs:90 | the entry tracked for a key carries that key, and there is none exactly when no entry has that key |
| ChangeTracker.Without | CandidateHub.Infrastructure/Repos/GenericRepository.cs:80-83 | dropping a key's entries keeps exactly the entries with other keys, keeps keys distinct and keeps "nothing pending" |
| ChangeTracker.Stage | CandidateHub.Infrastructure/Repos/GenericRepository.cs:70-83 | after staging, the key's entry is the new one in the given state and every other key's entry is as before |
| ChangeTracker.PendingCount | CandidateHub.Infrastructure/Repos/UnitOfWork.cs:58 | the save count is at most the number of entries and is zero exactly when nothing is pending |
| ChangeTracker.Inserted | CandidateHub.Infrastructure/Repos/UnitOfWork.cs:58 | the inserted rows are exactly the entities of Added entries |
| ChangeTracker.AcceptAll | CandidateHub.Infrastructure/Repos/UnitOfWork.cs:58 | after a save every entry keeps its entity and nothing is pending |
| ChangeTracker.SaveChanges | CandidateHub.Infrastructure/Repos/UnitOfWork.cs:58 | a save fails exactly on a fault, a missing update/delete target, or a result with a value wider than its column or breaking key or e-mail uniqueness; on success it writes the staged changes, counts them and leaves nothing pending |
| ChangeTracker.ApplyNothingPending | CandidateHub.Infrastructure/Repos/UnitOfWork.cs:58 | with nothing pending a save writes nothing |
| ChangeTracker.StagedInsertAppends | CandidateHub.Infrastructure/Repos/GenericRepository.cs:70-73 | one staged insert over a quiet tracker appends exactly that row and counts one change |
| ChangeTracker.StagedUpdateReplaces | CandidateHub.Infrastructure/Repos/GenericRepository.cs:75-78 | one staged update of a stored key replaces exactly that row, counts one change and has its target |
| ChangeTracker.StageOverQuiet | CandidateHub.Infrastructure/Repos/GenericRepository.cs:70-83 | staging one entity over a quiet tracker leaves only that entry possibly pending; it is inserted exactly when staged as Added and counts one change exactly when its state is pending |
| ChangeTracker.ApplyToRowsOneUpdate | CandidateHub.Infrastructure/Repos/UnitOfWork.cs:58 | when the only update is `e` and its key is stored at `i` alone, the save replaces row `i` by `e` and keeps every other row |
| ChangeTracker.ModifiedIsApplied | CandidateHub.Infrastructure/Repos/UnitOfWork.cs:58 | a modified entity whose key is stored is among the rows the save writes |
| ChangeTracker.InsertedAppend | CandidateHub.Infrastructure/Repos/UnitOfWork.cs:58 | inserts of two runs of entries are the inserts of each, in order |
| ChangeTracker.PendingAppend | CandidateHub.Infrastructure/Repos/UnitOfWork.cs:58 | the save count of two runs of entries is the sum of their counts |
| UnitOfWork.Repository | CandidateHub.Infrastructure/Repos/UnitOfWork.cs:23-37 | the returned repository is cached under its type; a cached one is returned with nothing changed; other types' entries and the data are untouched |
| UnitOfWork.RepositoryIsMemoized | CandidateHub.Infrastructure/Repos/UnitOfWork.cs:25-28 | asking again for the same type returns the same instance and changes nothing |
| UnitOfWork.NewRepositoryIsFresh | CandidateHub.Infrastructure/Repos/UnitOfWork.cs:31-36 | a repository made for a new type is an instance no other type holds, and the cache stays well formed |
| UnitOfWork.BeginTransaction | CandidateHub.Infrastructure/Repos/UnitOfWork.cs:52 | opening a transaction changes nothing this context reads |
| UnitOfWork.CommitTransaction | CandidateHub.Infrastructure/Repos/UnitOfWork.cs:63 | committing closes the transaction and publishes what it wrote |
| UnitOfWork.RollbackTransaction | CandidateHub.Infrastructure/Repos/UnitOfWork.cs:68 | rolling back closes the transaction and leaves the committed rows as they were |
| UnitOfWork.CommitAsync | CandidateHub.Infrastructure/Repos/UnitOfWork.cs:42-75 | all or nothing: it fails exactly when the save fails, and then changes nothing and raises the save's error; on success the rows are the staged changes applied and nothing is pending; an ambient transaction stays open and the committed rows untouched |
| UnitOfWork.CommitNothingPending | CandidateHub.Infrastructure/Repos/UnitOfWork.cs:42-64 | with nothing pending and a healthy database a commit writes nothing and reports 0 |
| UnitOfWork.CommitTwice | CandidateHub.Infrastructure/Repos/UnitOfWork.cs:42-64 | a commit straight after a successful commit writes nothing |
| UnitOfWork.RollbackState | CandidateHub.Infrastructure/Repos/UnitOfWork.cs:95-115 | a rolled-back state is never pending, and a state that was not pending is kept |
| UnitOfWork.RolledBack | CandidateHub.Infrastructure/Repos/UnitOfWork.cs:90-116 | entry by entry, the state is rolled back (Modified and Deleted to Unchanged, Added to Detached); the entity values of Modified entries are not reverted |
| UnitOfWork.Rollback | CandidateHub.Infrastructure/Repos/UnitOfWork.cs:82-123 | only the tracker changes, to `RolledBack` of the old one, entry by entry, and afterwards nothing is pending; with nothing pending it changes nothing; it has no failure outcome |
| UnitOfWork.RollbackQuickExitAgrees | CandidateHub.Infrastructure/Repos/UnitOfWork.cs:87-88 | the early return agrees with the walk: with nothing pending the walk changes nothing |
| UnitOfWork.RollbackIdempotent | CandidateHub.Infrastructure/Repos/UnitOfWork.cs:90-116 | a second rollback changes nothing |
| UnitOfWork.CommitAfterRollbackWritesNothing | CandidateHub.Infrastructure/Repos/UnitOfWork.cs:82-123 | after a rollback a commit writes nothing and reports 0 |
| GenericRepository.FindAll | CandidateHub.Infrastructure/Repos/GenericRepository.cs:35-38 | the result holds exactly the rows satisfying the predicate and is no longer than the rows |
| GenericRepository.FindAllCounts | CandidateHub.Infrastructure/Repos/GenericRepository.cs:35-38 | each satisfying row occurs as often as in the store and every other row not at all |
| GenericRepository.FindAllAppend | CandidateHub.Infrastructure/Repos/GenericRepository.cs:35-38 | selecting from two runs of rows is selecting from each, in store order |
| GenericRepository.FindAllKeepsAll | CandidateHub.Infrastructure/Repos/GenericRepository.cs:35-38 | a condition every row meets selects all rows, in store order |
| GenericRepository.GetAll | CandidateHub.Infrastructure/Repos/GenericRepository.cs:19-22 | the list is what `FindAllAsync` selects with a condition every row meets: all rows this context reads, in store order |
| GenericRepository.StagedChangesAreNotListed | CandidateHub.Infrastructure/Repos/GenericRepository.cs:19-22 | an add, update or delete that is only staged leaves the stored rows, and so the modelled list, as they were; for an add this is also what EF lists |
| GenericRepository.CommitIsListed | CandidateHub.Infrastructure/Repos/UnitOfWork.cs:42-75 | after a successful commit the list is the old list with the staged changes applied |
| GenericRepository.FirstMatch | CandidateHub.Infrastructure/Repos/GenericRepository.cs:50-53 | the position returned satisfies the predicate and no earlier one does; there is none exactly when no row does |
| GenericRepository.Find | CandidateHub.Infrastructure/Repos/GenericRepository.cs:50-53 | none exactly when no row satisfies the predicate, otherwise the first row that does |
| GenericRepository.FindIsHeadOfFindAll | CandidateHub.Infrastructure/Repos/GenericRepository.cs:35-53 | the first match is the head of the list of all matches |
| GenericRepository.FindAgrees | CandidateHub.Infrastructure/Repos/GenericRepository.cs:50-53 | predicates that agree on every stored row find the same row |
| GenericRepository.Any | CandidateHub.Infrastructure/Repos/GenericRepository.cs:65-68 | true exactly when `FindAsync` finds a row |
| GenericRepository.Wrap32 | CandidateHub.Infrastructure/Repos/GenericRepository.cs:112 | the 32-bit result is congruent to the exact value and equals it when it fits |
| GenericRepository.Skip | CandidateHub.Infrastructure/Repos/GenericRepository.cs:112 | skipping a negative count skips nothing, skipping past the end gives nothing, and the result is a suffix |
| GenericRepository.Take | CandidateHub.Infrastructure/Repos/GenericRepository.cs:112 | taking a negative count takes nothing, taking past the end takes everything, and the result is a prefix |
| GenericRepository.Filter | CandidateHub.Infrastructure/Repos/GenericRepository.cs:85-116 | the result only holds rows of the filtered, ordered sequence, and with paging at most page-size of them |
| GenericRepository.Page | CandidateHub.Infrastructure/Repos/GenericRepository.cs:110-113 | a page holds at most page-size rows, all from the sequence paged |
| GenericRepository.FilterWithoutPaging | CandidateHub.Infrastructure/Repos/GenericRepository.cs:92-115 | without both paging arguments the whole filtered, ordered sequence is returned; with no filter or order, all rows |
| GenericRepository.FilterPageIsSlice | CandidateHub.Infrastructure/Repos/GenericRepository.cs:110-113 | page `p` of size `s` is the slice starting at `(p-1)*s` of length `s`, clipped to the sequence |
| GenericRepository.TakeSkipIsSlice | CandidateHub.Infrastructure/Repos/GenericRepository.cs:112 | `Skip(off).Take(s)` is the slice from `off` of length `s`, clipped |
| GenericRepository.PageOffset | CandidateHub.Infrastructure/Repos/GenericRepository.cs:112 | when `(p-1)*s` fits in 32 bits the wrapped offset is the exact offset |
| GenericRepository.PageOffsetWraps | CandidateHub.Infrastructure/Repos/GenericRepository.cs:112 | page 65537 of size 65536 wraps to offset 0 |
| GenericRepository.PagesTile | CandidateHub.Infrastructure/Repos/GenericRepository.cs:110-113 | the first `n` pages, joined, are the first `n*s` rows: pages tile the sequence without gap or overlap |
| GenericRepository.Add | CandidateHub.Infrastructure/Repos/GenericRepository.cs:70-73 | only the tracker changes: the entity is staged as Added under its key, or under the generated key when it has none |
| GenericRepository.Update | CandidateHub.Infrastructure/Repos/GenericRepository.cs:75-78 | only the tracker changes: an entity with a key is staged as Modified; one without is added |
| GenericRepository.Delete | CandidateHub.Infrastructure/Repos/GenericRepository.cs:80-83 | only the tracker changes: an entity waiting for insert stops being tracked, any other is staged as Deleted |
| GenericRepository.DeleteCancelsAdd | CandidateHub.Infrastructure/Repos/GenericRepository.cs:70-83 | deleting what was just added leaves nothing pending and a save writes nothing |
| GenericRepository.AppendKeepsWellFormed | CandidateHub.Infrastructure/Data/CandidateHubDbContext.cs:22-27 | appending a row that fits the columns, with a fresh key and a fresh e-mail, keeps the store well formed |
| GenericRepository.ReplaceKeepsWellFormed | CandidateHub.Infrastructure/Data/CandidateHubDbContext.cs:22-27 | replacing a row by one that fits the columns, with the same key and an e-mail no other row has, keeps the store well formed |
| GenericRepository.AddThenCommitAppends | CandidateHub.Infrastructure/Repos/GenericRepository.cs:70-73 | add then commit of a row that fits the columns, over a quiet tracker, appends exactly the new row and reports one change |
| GenericRepository.UpdateThenCommitReplaces | CandidateHub.Infrastructure/Repos/GenericRepository.cs:75-78 | update then commit of a row that fits the columns, over a quiet tracker, replaces exactly the stored row with that key and reports one change |
| GenericRepository.AddOfUnfitIsRefused | CandidateHub.Domain/Entities/Candidate.cs:13-40 | committing an added entity with a value wider than its column fails, whatever else is pending, and writes nothing |
| GenericRepository.UpdateOfUnfitIsRefused | CandidateHub.Domain/Entities/Candidate.cs:13-40 | committing an updated entity with a value wider than its column fails, whatever else is pending, and writes nothing |
| CandidateRepository.GetByEmail | CandidateHub.Infrastructure/Repos/CandidateRepository.cs:21-25 | none exactly when no stored e-mail equals the argument up to case, otherwise the first that does |
| CandidateRepository.CaseVariantsFindSame | CandidateHub.Infrastructure/Repos/CandidateRepository.cs:23-24 | two spellings that differ only in case find the same candidate |
| CandidateRepository.UpperCaseFindsStored | CandidateHub.Infrastructure/Repos/CandidateRepository.cs:24 | "A@B.COM" finds a stored "a@b.com" |
| CandidateRepository.LeadingBlankFindsNothing | CandidateHub.Infrastructure/Repos/CandidateRepository.cs:24 | " a@b.com" does not find a stored "a@b.com": a leading blank is not trimmed, in the code or by SQL Server |
| CandidateRepository.DropTrailingSpaces | CandidateHub.Infrastructure/Repos/CandidateRepository.cs:24 | the result is a prefix of the input ending in no space, and what it drops is spaces only |
| CandidateRepository.SqlEqualsOnTrimmed | CandidateHub.Infrastructure/Repos/CandidateRepository.cs:24 | on trimmed strings SQL Server's padded `=` is exact equality |
| CandidateRepository.TrailingBlankMatchesInSql | CandidateHub.Infrastructure/Repos/CandidateRepository.cs:24 | "a@b.com " matches a stored "a@b.com" under the database's comparison, while the modelled exact lookup finds nothing |
| CandidateRepository.GetByEmailAgreesWithSql | CandidateHub.Infrastructure/Repos/CandidateRepository.cs:21-25 | with trimmed stored e-mails and a trimmed argument, the modelled lookup returns what the database's padded comparison returns |
| CandidateService.NormalizeEmail | CandidateHub.Application/Services/CandidateService.cs:22 | the normalised e-mail is trimmed, already lower-case and no longer than the input |
| CandidateService.NormalizeIdempotent | CandidateHub.Application/Services/CandidateService.cs:22 | normalising twice is normalising once |
| CandidateService.NormalizeBlank | CandidateHub.Application/Services/CandidateService.cs:22 | only a blank address normalises to the empty string |
| CandidateService.PaddedMixedCaseNormalizes | CandidateHub.Application/Services/CandidateService.cs:22 | " A@b.C  " normalises to "a@b.c" |
| CandidateService.NewCandidate | CandidateHub.Application/Services/CandidateService.cs:28-30 | the inserted entity's DTO is the input DTO with the normalised e-mail; it has no key yet, was created `now` and never updated |
| CandidateService.Overwrite | CandidateHub.Application/Services/CandidateService.cs:39-46 | the overwritten entity's DTO is the input DTO with the stored e-mail; key, e-mail and creation time stay, update time is `now` |
| CandidateService.CreateOrUpdate | CandidateHub.Application/Services/CandidateService.cs:18-58 | on success the returned e-mail lower-cases to the normalised one (and is it on create), the other fields are the input's, and the store is well formed with nothing pending; it fails exactly when the commit of the staged insert or update fails (a database fault, a vanished target, a value wider than its column, a duplicate key or e-mail), with that save error wrapped in `ServiceError`, and a fault always gives the wrapped `StoreFault`; on failure the rows are unchanged |
| CandidateService.Upsert | CandidateHub.Application/Services/CandidateService.cs:24-57 | the same, for the insert-or-overwrite step once the e-mail is normalised: failure exactly on the commit's failure conditions for `UpsertStaged`, the save's error wrapped, and failure whenever a value is wider than its column |
| CandidateService.UpsertStaged | CandidateHub.Application/Services/CandidateService.cs:24-48 | staging leaves the rows as they are and tracks either the new candidate as Added under the generated key (no match) or the overwritten first match as Modified |
| CandidateService.UpsertWritesUpsertedRows | CandidateHub.Application/Services/CandidateService.cs:26-52 | a successful call writes exactly the rows `UpsertedRows` describes and returns `UpsertedDto` |
| CandidateService.UpsertSucceeds | CandidateHub.Application/Services/CandidateService.cs:26-52 | over a settled store with a healthy database and a fresh key, with the editable fields (and on create the e-mail) fitting their columns, the call succeeds: neither branch breaks the unique key or e-mail |
| CandidateService.UpsertAppendsNew | CandidateHub.Application/Services/CandidateService.cs:26-36 | with no match and values that fit, the insert branch appends the new row under the generated key and returns the DTO with the normalised e-mail |
| CandidateService.UpsertOverwritesMatch | CandidateHub.Application/Services/CandidateService.cs:37-52 | with first match `i` and editable fields that fit, the update branch overwrites row `i` in place and returns the DTO with the stored e-mail |
| CandidateService.UpsertedRowsMatch | CandidateHub.Application/Services/CandidateService.cs:24-52 | the written rows keep keys assigned, grow by one only on create, and their first match holds the returned DTO |
| CandidateService.CreateAppendsOne | CandidateHub.Application/Services/CandidateService.cs:26-36 | with no match and values that fit their columns, exactly one candidate is appended, with the DTO's fields, the normalised e-mail, the generated key and creation time `now` |
| CandidateService.UpdateReplacesFirstMatch | CandidateHub.Application/Services/CandidateService.cs:37-52 | with a match and editable fields that fit their columns, only the first matching row changes, overwritten in place; nothing is inserted |
| CandidateService.UpsertKeepsSettled | CandidateHub.Application/Services/CandidateService.cs:24-52 | a successful call leaves the store settled, with the rows and result the reference description gives |
| CandidateService.UpsertedRowsKeepEmailsTrimmed | CandidateHub.Application/Services/CandidateService.cs:22-46 | inserting under a trimmed address, or overwriting while keeping the stored address, leaves every stored e-mail trimmed |
| CandidateService.UpsertKeepsEmailsTrimmed | CandidateHub.Application/Services/CandidateService.cs:18-58 | a successful call from a settled store of trimmed e-mails leaves every e-mail trimmed |
| CandidateService.UpsertIdempotentOnEmail | CandidateHub.Application/Services/CandidateService.cs:24-52 | after one call, a second with any spelling that normalises alike (and editable fields that fit) finds a match, succeeds and does not grow the store |
| CandidateService.GetCandidateByEmail | CandidateHub.Application/Services/CandidateService.cs:60-79 | read-only; fails exactly on a failing read, with the store fault wrapped; otherwise none exactly when no stored e-mail lower-cases to the normalised argument, else the DTO of the first that does |
| CandidateService.LookupIsRepositoryLookupOfTrimmed | CandidateHub.Application/Services/CandidateService.cs:64-66 | the service lookup is the candidate repository's case-insensitive lookup of the trimmed argument |
| CandidateService.LookupAgreesWithSql | CandidateHub.Application/Services/CandidateService.cs:64-66 | over a store of trimmed e-mails the service lookup returns what the database's padded comparison of the trimmed argument returns |
| CandidateService.LookupReturnsFirstMatch | CandidateHub.Application/Services/CandidateService.cs:64-73 | the lookup returns the DTO of the first matching row |
| CandidateService.UpsertThenLookup | CandidateHub.Application/Services/CandidateService.cs:18-79 | after a successful call, looking up any spelling that normalises alike returns the DTO the call returned |
| CandidateService.GetAllCandidates | CandidateHub.Application/Services/CandidateService.cs:81-97 | read-only; fails exactly on a failing read, with the store fault wrapped; otherwise none exactly for an empty store, else every stored candidate's DTO in store order |
| CandidateService.CreateThenListEndsWithNew | CandidateHub.Application/Services/CandidateService.cs:81-97 | after a create whose values fit their columns the list is one longer and ends with the DTO the create returned |

## Left out

- The memory cache (`CacheService`) is not used by the service modelled here. Cache invalidation and the empty-placeholder result appear only in tests of a different service version.
- Controllers, `ApiResponse`, `Program.cs`, dependency injection and Swagger are the HTTP boundary, with no logic of the core.
- The design-time factory and `CandidateSeeder` are configuration and file I/O. Of the schema, the unique index on `Email` and the column widths are kept, as part of `WellFormed`; the NOT NULL constraints need no check, since the model's required strings are never null.
- `async`/`Task`, the `ConcurrentDictionary`'s thread safety and concurrent upserts racing each other are not modelled: each call is one atomic step.
- `DisposeAsync` and the synchronous `Commit()` are left out: resource release, and a plain save with no transaction logic.
- `GetByIdAsync(int)` is left out: the key is a `Guid`, so EF's `FindAsync` with an `int` key value throws an `ArgumentException` rather than finding a candidate.
- `Include` and `includeProperties` are left out: the single entity has no navigation properties.
- Expression trees and `IQueryable`: predicates and orderings are Dafny functions over rows.
- GenericRepository.StagedChangesAreNotListed: the model's reads return the stored rows. `ToListAsync` is a tracking query, so EF returns the tracked instance for any key already tracked. After a staged `Update(e)` the source therefore lists `e`'s edited values, and after a staged `Delete(e)` it still lists the row with `e`'s values. Only the `Add` clause matches what the source lists.
- UnitOfWork.RolledBack: original values are not modelled. Setting a Modified entry's state to Unchanged makes EF copy the original values back into the entity, so on the service's update path (read by a tracking query, then edited) the entity reverts to the values read. The model keeps the edited values in the Unchanged entry. `UnitOfWork.Rollback` inherits this. No modelled read observes those values, and nothing is pending after the rollback either way.
- EF identity resolution is not modelled. Tracking queries attaching Unchanged entries and the identity conflict that `Add` raises for an already-tracked key are left out. The tracker holds only what the repository stages.
- Savepoints, and faults raised by opening or committing a transaction, are not modelled: one `fault` flag decides the save.
- `Guid`, `DateTime` and the `[EmailAddress]` check are abstract: keys and times are natural numbers and the e-mail format is the parameter `isEmail`.
- Validation message texts are not modelled; an error names the property and the attribute.
- Text.ToLowerInvariant: lower-cases the ASCII letters only, because culture and Unicode case mapping tables are outside the model.
- Validation.MatchPhone: `\d` is taken as the ASCII digits, while .NET's `\d` also accepts other Unicode decimal digits.
- ChangeTracker.SaveChanges: the unique index compares e-mails exactly, while SQL Server compares them under its collation, which may ignore case, and always ignores trailing spaces, so "a@b.com" and "a@b.com " already count as duplicates there. The service writes only trimmed e-mails (`CandidateService.UpsertKeepsEmailsTrimmed`), which rules out the trailing-space case for rows it stores.
- CandidateRepository.GetByEmail: compares the lower-cased e-mails exactly. SQL Server's `=` ignores trailing spaces, so "a@b.com " finds a stored "a@b.com" in the database and nothing in the model (`TrailingBlankMatchesInSql`). `GetByEmailAgreesWithSql` and `CandidateService.LookupAgreesWithSql` prove the two agree whenever the stored e-mails and the argument are trimmed, as they are on the service's path. The same holds for the service's `EmailMatcher`.
- GenericRepository.Skip: uses the LINQ clamping of negative counts; how SQL Server treats a negative OFFSET or FETCH is not modelled.
- GenericRepository.Take: a page size of zero or below gives an empty page, as LINQ to Objects does. SQL Server refuses `FETCH NEXT 0 ROWS` and negative counts and raises an error, which the model does not promise.
- GenericRepository.Filter: `orderBy` may be any function of the kept rows. That it only reorders them is not assumed, so the contract promises membership in the ordered sequence only.
- GenericRepository.Find: "store order" is the order of the modelled row sequence. `FirstOrDefaultAsync` without `OrderBy` lets SQL Server return any matching row, so when several rows match, which one comes back is an assumption of the model.
- CandidateService.GetAllCandidates: the list is in the order of the modelled row sequence, where inserts go at the end. SQL Server guarantees no order without `ORDER BY`, so the order is an assumption.
- CandidateService.CreateThenListEndsWithNew: relies on that same assumption that a new row is listed last; the source promises only that the new row is listed.
- Domain.PreferenceFromCode: rejects bytes other than 1 to 4, while a C# enum holds any byte; a stored byte outside 1 to 4 would be materialised as an undefined preference.
- GenericRepository.FilterPageIsSlice: stated only when `(p-1)*s` fits in 32 bits. When it does not, the C# product wraps around, and `PageOffsetWraps` shows a page that wraps back to offset 0.
- GenericRepository.PagesTile: stated only for positive page sizes and `n*s` within 32 bits.

=== FILE: candidate_repository.dfy ===
/** The candidate repository's one query of its own: look a candidate up by
    e-mail, ignoring case but not surrounding white space. The database's
    comparison also ignores trailing spaces; `GetByEmailAgreesWithSql` says
    when the exact comparison modelled here finds the same row. */
module CandidateRepository {
  import opened Wrappers
  import opened Text
  import opened Domain
  import opened GenericRepository

  /** The lookup's condition: both e-mails lower-cased are equal. */
  function SameEmailIgnoringCase(email: string): Candidate -> bool {
    (c: Candidate) => ToLowerInvariant(c.email) == ToLowerInvariant(email)
  }

  /** `GetByEmailAsync(email)`: the first stored candidate whose e-mail equals
      `email` up to case, or none. It reads `rows` and changes nothing. */
  function GetByEmail(rows: seq<Candidate>, email: string): (r: Option<Candidate>)
    ensures r.None? <==> forall i :: 0 <= i < |rows| ==> ToLowerInvariant(rows[i].email) != ToLowerInvariant(email)
    ensures r.Some? ==> exists i :: && 0 <= i < |rows| && rows[i] == r.value
                                    && ToLowerInvariant(rows[i].email) == ToLowerInvariant(email)
                                    && forall j :: 0 <= j < i ==> ToLowerInvariant(rows[j].email) != ToLowerInvariant(email)
  {
    Find(rows, SameEmailIgnoringCase(email))
  }

  /** Two spellings of an e-mail that differ only in case find the same candidate. */
  lemma CaseVariantsFindSame(rows: seq<Candidate>, e1: string, e2: string)
    requires ToLowerInvariant(e1) == ToLowerInvariant(e2)
    ensures GetByEmail(rows, e1) == GetByEmail(rows, e2)
  {
    FindAgrees(rows, SameEmailIgnoringCase(e1), SameEmailIgnoringCase(e2));
  }

  /** An upper-case spelling finds the lower-case stored address. */
  lemma UpperCaseFindsStored(c: Candidate)
    requires c.email == "a@b.com"
    ensures GetByEmail([c], "A@B.COM") == Some(c)
  {
    assert ToLowerInvariant("A@B.COM") == "a@b.com";
  }

  /** A string without its trailing spaces (U+0020). */
  function DropTrailingSpaces(s: string): (r: string)
    ensures |r| <= |s| && r == s[..|r|]
    ensures r == [] || r[|r| - 1] != ' '
    ensures forall i :: |r| <= i < |s| ==> s[i] == ' '
  {
    if s != [] && s[|s| - 1] == ' ' then
      var r := DropTrailingSpaces(s[..|s| - 1]);
      assert s[..|s| - 1][..|r|] == s[..|r|];
      r
    else s
  }

  /** SQL Server's `=` on strings: the shorter operand is padded with spaces
      (ANSI padding), so trailing spaces never decide a comparison. */
  predicate SqlEquals(a: string, b: string) {
    DropTrailingSpaces(a) == DropTrailingSpaces(b)
  }

  /** The condition the database evaluates for `c.Email.ToLower() == email.ToLower()`. */
  function SqlSameEmailIgnoringCase(email: string): Candidate -> bool {
    (c: Candidate) => SqlEquals(ToLowerInvariant(c.email), ToLowerInvariant(email))
  }

  /** On trimmed strings the padded comparison is exact equality. */
  lemma SqlEqualsOnTrimmed(a: string, b: string)
    requires IsTrimmed(a) && IsTrimmed(b)
    ensures SqlEquals(a, b) <==> a == b
  {
    assert DropTrailingSpaces(a) == a;
    assert DropTrailingSpaces(b) == b;
  }

  /** The database ignores a trailing space that the model keeps: "a@b.com "
      matches a stored "a@b.com" under SQL Server's comparison. */
  lemma TrailingBlankMatchesInSql(c: Candidate)
    requires c.email == "a@b.com"
    ensures SqlSameEmailIgnoringCase("a@b.com ")(c)
    ensures GetByEmail([c], "a@b.com ") == None
  {
    assert ToLowerInvariant("a@b.com ") == "a@b.com ";
    assert ToLowerInvariant("a@b.com") == "a@b.com";
    assert DropTrailingSpaces("a@b.com ") == DropTrailingSpaces("a@b.com ")[..7];
    assert |ToLowerInvariant("a@b.com ")| != |ToLowerInvariant(c.email)|;
  }

  /** Every stored e-mail is trimmed. */
  predicate EmailsTrimmed(rows: seq<Candidate>) {
    forall i :: 0 <= i < |rows| ==> IsTrimmed(rows[i].email)
  }

  /** When the stored e-mails and the argument are trimmed, the exact lookup
      finds what the database's padded comparison finds. */
  lemma GetByEmailAgreesWithSql(rows: seq<Candidate>, email: string)
    requires EmailsTrimmed(rows) && IsTrimmed(email)
    ensures GetByEmail(rows, email) == Find(rows, SqlSameEmailIgnoringCase(email))
  {
    forall x | x in rows
      ensures SameEmailIgnoringCase(email)(x) == SqlSameEmailIgnoringCase(email)(x)
    {
      LowerKeepsTrimmed(x.email);
      LowerKeepsTrimmed(email);
      SqlEqualsOnTrimmed(ToLowerInvariant(x.email), ToLowerInvariant(email));
    }
    FindAgrees(rows, SameEmailIgnoringCase(email), SqlSameEmailIgnoringCase(email));
  }

  /** Surrounding white space is not removed: a leading blank finds nothing. */
  lemma LeadingBlankFindsNothing(c: Candidate)
    requires c.email == "a@b.com"
    ensures GetByEmail([c], " a@b.com") == None
  {
    assert ToLowerInvariant(" a@b.com")[0] == ' ';
    assert |ToLowerInvariant(" a@b.com")| != |ToLowerInvariant(c.email)|;
  }
}

=== FILE: candidate_service.dfy ===
/** The candidate service: insert-or-overwrite keyed on the normalised e-mail,
    lookup by e-mail, and the full list, all through one unit of work. */
module CandidateService {
  import opened Wrappers
  import opened Text
  import opened Domain
  import opened Dtos
  import opened Mapping
  import opened ChangeTracker
  import opened UnitOfWork
  import opened GenericRepository
  import opened CandidateRepository

  /** The type name the service asks the unit of work for. */
  const CandidateType := "Candidate"

  /** `ApplicationException`: every failure is re-raised wrapped; the cause is kept. */
  datatype ServiceError = ServiceError(cause: SaveError)

  /** `email.Trim().ToLowerInvariant()`. */
  function NormalizeEmail(email: string): (r: string)
    ensures IsTrimmed(r)
    ensures ToLowerInvariant(r) == r
    ensures |r| <= |email|
  {
    LowerKeepsTrimmed(Trim(email));
    LowerIdempotent(Trim(email));
    ToLowerInvariant(Trim(email))
  }

  /** Normalising a normalised address changes nothing. */
  lemma NormalizeIdempotent(email: string)
    ensures NormalizeEmail(NormalizeEmail(email)) == NormalizeEmail(email)
  {
    TrimOfTrimmed(NormalizeEmail(email));
  }

  /** Only a blank address normalises to the empty string. */
  lemma NormalizeBlank(email: string)
    ensures NormalizeEmail(email) == [] <==> IsBlank(email)
  {
    TrimKeepsMiddle(email);
  }

  /** Case and surrounding blanks do not matter: a padded, mixed-case address
      normalises to its plain lower-case form. */
  lemma PaddedMixedCaseNormalizes()
    ensures NormalizeEmail(" A@b.C  ") == "a@b.c"
  {
    var m := "A@b.C";
    assert Trim(" A@b.C  ") == m by {
      assert IsTrimmed(m) && IsBlank(" ") && IsBlank("  ");
      assert " A@b.C  " == " " + m + "  ";
      TrimAroundTrimmed(" ", m, "  ");
    }
    assert ToLowerInvariant(m) == "a@b.c" by {
      var lower := ToLowerInvariant(m);
      assert lower[0] == 'a' && lower[1] == '@' && lower[2] == 'b' && lower[3] == '.' && lower[4] == 'c';
    }
  }

  /** The lookup's condition: the stored e-mail, lower-cased, is `normalized`. */
  function EmailMatcher(normalized: string): Candidate -> bool {
    (c: Candidate) => ToLowerInvariant(c.email) == normalized
  }

  /** The entity a create inserts: the DTO's fields, the normalised e-mail and
      the creation time. */
  function NewCandidate(dto: CandidateDto, normalized: string, now: DateTime): (c: Candidate)
    ensures ToDto(c) == dto.(email := normalized)
    ensures c.id == EmptyGuid && c.createdAt == now && c.updatedAt == None
  {
    ToEntity(dto).(email := normalized, createdAt := now)
  }

  /** The stored entity after an update: the seven editable fields come from the
      DTO and the update time is set; the key, the e-mail and the creation
      time stay. */
  function Overwrite(found: Candidate, dto: CandidateDto, now: DateTime): (c: Candidate)
    ensures ToDto(c) == dto.(email := found.email)
    ensures c.id == found.id && c.email == found.email && c.createdAt == found.createdAt
    ensures c.updatedAt == Some(now)
  {
    found.(firstName := dto.firstName, lastName := dto.lastName, phoneNumber := dto.phoneNumber,
           callTimePreference := dto.callTimePreference, linkedInUrl := dto.linkedInUrl,
           gitHubUrl := dto.gitHubUrl, comments := dto.comments, updatedAt := Some(now))
  }

  /** The unit of work once the upsert has staged its change, before the
      commit: an insert of the new candidate when no stored e-mail matches
      `n`, else an update of the first match. */
  function UpsertStaged(u: State, dto: CandidateDto, n: string, now: DateTime, newId: Guid): (s: State)
    ensures Visible(s) == Visible(u) && s.committed == u.committed && s.repositories == u.repositories
    ensures Find(Visible(u), EmailMatcher(n)).None? ==>
              Lookup(s.tracker, newId) == Some(Entry(NewCandidate(dto, n, now).(id := newId), Added))
    ensures Find(Visible(u), EmailMatcher(n)).Some? && Find(Visible(u), EmailMatcher(n)).value.id != EmptyGuid ==>
              var found := Find(Visible(u), EmailMatcher(n)).value;
              Lookup(s.tracker, found.id) == Some(Entry(Overwrite(found, dto, now), Modified))
  {
    match Find(Visible(u), EmailMatcher(n))
    case None => Add(u, NewCandidate(dto, n, now), newId)
    case Some(found) => Update(u, Overwrite(found, dto, now), newId)
  }

  /** `CreateOrUpdateCandidateAsync(dto)`. The stored candidate whose e-mail,
      lower-cased, equals the normalised address is overwritten; when there is
      none, a new one is inserted. `now` is the clock, `newId` the key the
      database generates, `fault` whether the database fails on its own. */
  function CreateOrUpdate(u: State, dto: CandidateDto, now: DateTime, newId: Guid, fault: bool)
    : (r: Reply<Result<CandidateDto, ServiceError>>)
    ensures r.value.Success? ==> ToLowerInvariant(r.value.value.email) == NormalizeEmail(dto.email)
    ensures r.value.Success? ==> r.value.value == dto.(email := r.value.value.email)
    ensures r.value.Success? && Find(Visible(u), EmailMatcher(NormalizeEmail(dto.email))).None? ==>
              r.value.value.email == NormalizeEmail(dto.email)
    ensures r.value.Success? ==> !HasChanges(r.state.tracker) && WellFormed(Visible(r.state))
    ensures r.value.Failure? ==> Visible(r.state) == Visible(u) && r.state.committed == u.committed
    ensures !EditableFieldsFit(ToEntity(dto)) ==> r.value.Failure?
    ensures (Find(Visible(u), EmailMatcher(NormalizeEmail(dto.email))).None?
             && Utf16Length(NormalizeEmail(dto.email)) > MaxEmailLength) ==> r.value.Failure?
    ensures var s := UpsertStaged(u, dto, NormalizeEmail(dto.email), now, newId);
            r.value.Failure? <==> fault || !TargetsExist(Visible(s), s.tracker) || !WellFormed(Apply(Visible(s), s.tracker))
    ensures var s := UpsertStaged(u, dto, NormalizeEmail(dto.email), now, newId);
            r.value.Failure? ==> r.value.error == ServiceError(SaveChanges(Visible(s), s.tracker, fault).error)
    ensures fault ==> r.value == Failure(ServiceError(StoreFault))
    ensures CandidateType in r.state.repositories
  {
    Upsert(Repository(u, CandidateType).state, dto, NormalizeEmail(dto.email), now, newId, fault)
  }

  /** What `CreateOrUpdateCandidateAsync` does once the address is normalised
      to `n`: look it up, then insert or overwrite, then commit. A failed
      commit is re-raised as a `ServiceError`. */
  function Upsert(u: State, dto: CandidateDto, n: string, now: DateTime, newId: Guid, fault: bool)
    : (r: Reply<Result<CandidateDto, ServiceError>>)
    requires ToLowerInvariant(n) == n
    ensures r.value.Success? ==> ToLowerInvariant(r.value.value.email) == n
    ensures r.value.Success? ==> r.value.value == dto.(email := r.value.value.email)
    ensures r.value.Success? && Find(Visible(u), EmailMatcher(n)).None? ==> r.value.value.email == n
    ensures r.value.Success? ==> !HasChanges(r.state.tracker) && WellFormed(Visible(r.state))
    ensures r.value.Failure? ==> Visible(r.state) == Visible(u) && r.state.committed == u.committed
    ensures !EditableFieldsFit(ToEntity(dto)) ==> r.value.Failure?
    ensures Find(Visible(u), EmailMatcher(n)).None? && Utf16Length(n) > MaxEmailLength ==> r.value.Failure?
    ensures var s := UpsertStaged(u, dto, n, now, newId);
            r.value.Failure? <==> fault || !TargetsExist(Visible(s), s.tracker) || !WellFormed(Apply(Visible(s), s.tracker))
    ensures var s := UpsertStaged(u, dto, n, now, newId);
            r.value.Failure? ==> r.value.error == ServiceError(SaveChanges(Visible(s), s.tracker, fault).error)
    ensures fault ==> r.value == Failure(ServiceError(StoreFault))
    ensures r.state.repositories == u.repositories
  {
    match Find(Visible(u), EmailMatcher(n))
    case None =>
      var entity := NewCandidate(dto, n, now);
      var c := CommitAsync(Add(u, entity, newId), fault);
      assert !FitsColumns(entity) ==> c.value.Failure? by {
        if !FitsColumns(entity) {
          AddOfUnfitIsRefused(u, entity, newId, fault);
        }
      }
      if c.value.Failure? then Reply(c.state, Failure(ServiceError(c.value.error)))
      else Reply(c.state, Success(ToDto(entity)))
    case Some(found) =>
      var updated := Overwrite(found, dto, now);
      var c := CommitAsync(Update(u, updated, newId), fault);
      assert !FitsColumns(updated) ==> c.value.Failure? by {
        if !FitsColumns(updated) {
          UpdateOfUnfitIsRefused(u, updated, newId, fault);
        }
      }
      if c.value.Failure? then Reply(c.state, Failure(ServiceError(c.value.error)))
      else Reply(c.state, Success(ToDto(updated)))
  }

  /** The rows a successful upsert leaves, written independently of the unit
      of work: the first match overwritten in place, or else one new row at
      the end under the generated key. */
  function UpsertedRows(rows: seq<Candidate>, dto: CandidateDto, n: string, now: DateTime, newId: Guid)
    : seq<Candidate>
  {
    match FirstMatch(rows, EmailMatcher(n))
    case None => rows + [NewCandidate(dto, n, now).(id := newId)]
    case Some(i) => rows[i := Overwrite(rows[i], dto, now)]
  }

  /** The DTO a successful upsert returns, written independently of the unit of
      work: the DTO with the stored e-mail of the first match, or with the
      normalised one when there is no match. */
  function UpsertedDto(rows: seq<Candidate>, dto: CandidateDto, n: string): CandidateDto {
    match FirstMatch(rows, EmailMatcher(n))
    case None => dto.(email := n)
    case Some(i) => dto.(email := rows[i].email)
  }

  /** Every stored row carries a generated key. */
  predicate KeysAssigned(rows: seq<Candidate>) {
    forall i :: 0 <= i < |rows| ==> rows[i].id != EmptyGuid
  }

  /** A unit of work at rest: a well-formed store whose rows all have keys, and
      nothing pending. */
  predicate Settled(u: State) {
    WellFormed(Visible(u)) && KeysAssigned(Visible(u)) && !HasChanges(u.tracker)
  }

  /** A successful upsert over a tracker with nothing pending writes exactly
      the rows `UpsertedRows` describes and returns `UpsertedDto`. */
  lemma UpsertWritesUpsertedRows(u: State, dto: CandidateDto, n: string, now: DateTime, newId: Guid, fault: bool)
    requires ToLowerInvariant(n) == n
    requires !HasChanges(u.tracker) && UniqueIds(Visible(u)) && KeysAssigned(Visible(u))
    requires Upsert(u, dto, n, now, newId, fault).value.Success?
    ensures Visible(Upsert(u, dto, n, now, newId, fault).state) == UpsertedRows(Visible(u), dto, n, now, newId)
    ensures Upsert(u, dto, n, now, newId, fault).value.value == UpsertedDto(Visible(u), dto, n)
  {
    var rows := Visible(u);
    match FirstMatch(rows, EmailMatcher(n))
    case None =>
      assert Find(rows, EmailMatcher(n)).None?;
      var entity := NewCandidate(dto, n, now);
      StagedInsertAppends(rows, u.tracker, entity.(id := newId));
      assert Add(u, entity, newId).tracker == Stage(u.tracker, entity.(id := newId), Added);
    case Some(i) =>
      assert Find(rows, EmailMatcher(n)) == Some(rows[i]);
      var e := Overwrite(rows[i], dto, now);
      StagedUpdateReplaces(rows, u.tracker, e, i);
      assert Update(u, e, newId).tracker == Stage(u.tracker, e, Modified);
  }

  /** On a settled unit of work with a healthy database and a fresh key, the
      upsert succeeds as long as the values it writes fit their columns: it
      never breaks the key or the unique e-mail index. */
  lemma UpsertSucceeds(u: State, dto: CandidateDto, n: string, now: DateTime, newId: Guid)
    requires ToLowerInvariant(n) == n
    requires Settled(u)
    requires EditableFieldsFit(ToEntity(dto))
    requires Find(Visible(u), EmailMatcher(n)).None? ==> Utf16Length(n) <= MaxEmailLength
    requires newId != EmptyGuid && forall i :: 0 <= i < |Visible(u)| ==> Visible(u)[i].id != newId
    ensures Upsert(u, dto, n, now, newId, false).value.Success?
  {
    match FirstMatch(Visible(u), EmailMatcher(n))
    case None =>
      UpsertAppendsNew(u, dto, n, now, newId);
    case Some(i) =>
      UpsertOverwritesMatch(u, dto, n, now, newId, i);
  }

  /** The insert branch of the upsert: one new row at the end under the
      generated key, and the DTO comes back with the normalised e-mail. */
  lemma UpsertAppendsNew(u: State, dto: CandidateDto, n: string, now: DateTime, newId: Guid)
    requires ToLowerInvariant(n) == n
    requires Settled(u) && EditableFieldsFit(ToEntity(dto)) && Utf16Length(n) <= MaxEmailLength
    requires FirstMatch(Visible(u), EmailMatcher(n)).None?
    requires newId != EmptyGuid && forall i :: 0 <= i < |Visible(u)| ==> Visible(u)[i].id != newId
    ensures var r := Upsert(u, dto, n, now, newId, false);
      && r.value == Success(dto.(email := n))
      && Visible(r.state) == Visible(u) + [NewCandidate(dto, n, now).(id := newId)]
  {
    var rows := Visible(u);
    var entity := NewCandidate(dto, n, now);
    assert Find(rows, EmailMatcher(n)).None?;
    forall i | 0 <= i < |rows| ensures rows[i].email != entity.email {
      assert !EmailMatcher(n)(rows[i]);
    }
    AddThenCommitAppends(u, entity, newId);
  }

  /** `UpsertedRows` keeps every key assigned and leaves a match for `n`
      whose first occurrence holds `UpsertedDto`. */
  lemma UpsertedRowsMatch(rows: seq<Candidate>, dto: CandidateDto, n: string, now: DateTime, newId: Guid)
    requires ToLowerInvariant(n) == n
    requires KeysAssigned(rows) && newId != EmptyGuid
    ensures var after := UpsertedRows(rows, dto, n, now, newId);
      && KeysAssigned(after)
      && |after| == (if FirstMatch(rows, EmailMatcher(n)).Some? then |rows| else |rows| + 1)
      && FirstMatch(after, EmailMatcher(n)).Some?
      && var j := FirstMatch(after, EmailMatcher(n)).value;
         ToDto(after[j]) == UpsertedDto(rows, dto, n)
  {
    var after := UpsertedRows(rows, dto, n, now, newId);
    match FirstMatch(rows, EmailMatcher(n))
    case None =>
      assert EmailMatcher(n)(after[|rows|]);
      assert FirstMatch(after, EmailMatcher(n)) == Some(|rows|) by {
        assert forall j :: 0 <= j < |rows| ==> after[j] == rows[j];
      }
    case Some(i) =>
      assert EmailMatcher(n)(after[i]);
      assert FirstMatch(after, EmailMatcher(n)) == Some(i) by {
        assert forall j :: 0 <= j < i ==> after[j] == rows[j];
      }
  }

  /** When no stored e-mail matches, exactly one candidate is inserted: the DTO's
      fields with the normalised e-mail, the creation time `now` and no update
      time, under the generated key. */
  lemma CreateAppendsOne(u: State, dto: CandidateDto, now: DateTime, newId: Guid)
    requires Settled(u)
    requires EditableFieldsFit(ToEntity(dto)) && Utf16Length(NormalizeEmail(dto.email)) <= MaxEmailLength
    requires Find(Visible(u), EmailMatcher(NormalizeEmail(dto.email))).None?
    requires newId != EmptyGuid && forall i :: 0 <= i < |Visible(u)| ==> Visible(u)[i].id != newId
    ensures var r := CreateOrUpdate(u, dto, now, newId, false);
      && r.value == Success(dto.(email := NormalizeEmail(dto.email)))
      && Visible(r.state) == Visible(u) + [NewCandidate(dto, NormalizeEmail(dto.email), now).(id := newId)]
  {
    var n := NormalizeEmail(dto.email);
    var u1 := Repository(u, CandidateType).state;
    assert FirstMatch(Visible(u1), EmailMatcher(n)).None?;
    UpsertAppendsNew(u1, dto, n, now, newId);
  }

  /** When stored row `i` is the first match, it is overwritten in place and
      nothing else changes: no row is inserted and the key, e-mail and creation
      time of row `i` stay. */
  lemma UpdateReplacesFirstMatch(u: State, dto: CandidateDto, now: DateTime, newId: Guid, i: nat)
    requires Settled(u) && EditableFieldsFit(ToEntity(dto))
    requires i < |Visible(u)| && EmailMatcher(NormalizeEmail(dto.email))(Visible(u)[i])
    requires forall j :: 0 <= j < i ==> !EmailMatcher(NormalizeEmail(dto.email))(Visible(u)[j])
    ensures var r := CreateOrUpdate(u, dto, now, newId, false);
      && r.value == Success(dto.(email := Visible(u)[i].email))
      && Visible(r.state) == Visible(u)[i := Overwrite(Visible(u)[i], dto, now)]
  {
    var n := NormalizeEmail(dto.email);
    var u1 := Repository(u, CandidateType).state;
    assert FirstMatch(Visible(u1), EmailMatcher(n)) == Some(i);
    UpsertOverwritesMatch(u1, dto, n, now, newId, i);
  }

  /** The update branch of the upsert: the first match `i` is overwritten in
      place and the DTO comes back with the stored e-mail. */
  lemma UpsertOverwritesMatch(u: State, dto: CandidateDto, n: string, now: DateTime, newId: Guid, i: nat)
    requires ToLowerInvariant(n) == n
    requires Settled(u) && EditableFieldsFit(ToEntity(dto))
    requires FirstMatch(Visible(u), EmailMatcher(n)) == Some(i)
    ensures i < |Visible(u)|
    ensures var r := Upsert(u, dto, n, now, newId, false);
      && r.value == Success(dto.(email := Visible(u)[i].email))
      && Visible(r.state) == Visible(u)[i := Overwrite(Visible(u)[i], dto, now)]
  {
    var rows := Visible(u);
    var e := Overwrite(rows[i], dto, now);
    assert Find(rows, EmailMatcher(n)) == Some(rows[i]);
    assert FitsColumns(e) by {
      assert FitsColumns(rows[i]);
    }
    assert forall j :: 0 <= j < |rows| && j != i ==> rows[j].email != e.email by {
      assert UniqueEmails(rows);
    }
    UpdateThenCommitReplaces(u, e, i, newId);
  }

  /** Every successful call from a settled unit of work leaves it settled, with
      the rows `UpsertedRows` describes. */
  lemma UpsertKeepsSettled(u: State, dto: CandidateDto, now: DateTime, newId: Guid, fault: bool)
    requires Settled(u) && newId != EmptyGuid
    requires CreateOrUpdate(u, dto, now, newId, fault).value.Success?
    ensures var r := CreateOrUpdate(u, dto, now, newId, fault);
      && Settled(r.state)
      && Visible(r.state) == UpsertedRows(Visible(u), dto, NormalizeEmail(dto.email), now, newId)
      && r.value.value == UpsertedDto(Visible(u), dto, NormalizeEmail(dto.email))
  {
    var n := NormalizeEmail(dto.email);
    var u1 := Repository(u, CandidateType).state;
    UpsertWritesUpsertedRows(u1, dto, n, now, newId, fault);
    UpsertedRowsMatch(Visible(u), dto, n, now, newId);
  }

  /** The service writes only trimmed e-mails: a successful call from a settled
      store whose e-mails are trimmed leaves them trimmed. */
  lemma UpsertKeepsEmailsTrimmed(u: State, dto: CandidateDto, now: DateTime, newId: Guid, fault: bool)
    requires Settled(u) && newId != EmptyGuid && EmailsTrimmed(Visible(u))
    requires CreateOrUpdate(u, dto, now, newId, fault).value.Success?
    ensures EmailsTrimmed(Visible(CreateOrUpdate(u, dto, now, newId, fault).state))
  {
    UpsertKeepsSettled(u, dto, now, newId, fault);
    UpsertedRowsKeepEmailsTrimmed(Visible(u), dto, NormalizeEmail(dto.email), now, newId);
  }

  /** An insert under a trimmed address and an overwrite that keeps the stored
      address both leave every e-mail trimmed. */
  lemma UpsertedRowsKeepEmailsTrimmed(rows: seq<Candidate>, dto: CandidateDto, n: string, now: DateTime, newId: Guid)
    requires EmailsTrimmed(rows) && IsTrimmed(n)
    ensures EmailsTrimmed(UpsertedRows(rows, dto, n, now, newId))
  {
    var after := UpsertedRows(rows, dto, n, now, newId);
    match FirstMatch(rows, EmailMatcher(n))
    case None =>
      assert forall i :: 0 <= i < |rows| ==> after[i] == rows[i];
      assert after[|rows|].email == n;
    case Some(i) =>
      assert forall j :: 0 <= j < |rows| ==> after[j].email == rows[j].email;
  }

  /** Idempotent on the e-mail: after a successful call, a second call with any
      spelling of the same address that normalises alike takes the update
      branch, succeeds, and leaves the number of candidates as it was. */
  lemma UpsertIdempotentOnEmail(u: State, dto: CandidateDto, dto2: CandidateDto,
                                now: DateTime, now2: DateTime, newId: Guid, newId2: Guid, fault: bool)
    requires Settled(u) && newId != EmptyGuid
    requires CreateOrUpdate(u, dto, now, newId, fault).value.Success?
    requires NormalizeEmail(dto2.email) == NormalizeEmail(dto.email)
    requires EditableFieldsFit(ToEntity(dto2))
    ensures var first := CreateOrUpdate(u, dto, now, newId, fault).state;
      var second := CreateOrUpdate(first, dto2, now2, newId2, false);
      && Find(Visible(first), EmailMatcher(NormalizeEmail(dto2.email))).Some?
      && second.value.Success?
      && |Visible(second.state)| == |Visible(first)|
  {
    var first := CreateOrUpdate(u, dto, now, newId, fault).state;
    var n := NormalizeEmail(dto.email);
    UpsertKeepsSettled(u, dto, now, newId, fault);
    UpsertedRowsMatch(Visible(u), dto, n, now, newId);
    var i := FirstMatch(Visible(first), EmailMatcher(n)).value;
    UpdateReplacesFirstMatch(first, dto2, now2, newId2, i);
  }

  /** `GetCandidateByEmailAsync(email)`: the DTO of the first stored candidate
      whose lower-cased e-mail equals the normalised address, or none. A
      failing read (`fault`) is re-raised as a `ServiceError`. The rows and
      the tracker are left as they were. */
  function GetCandidateByEmail(u: State, email: string, fault: bool)
    : (r: Reply<Result<Option<CandidateDto>, ServiceError>>)
    ensures r.state.committed == u.committed && r.state.transaction == u.transaction && r.state.tracker == u.tracker
    ensures r.value.Failure? <==> fault
    ensures r.value.Failure? ==> r.value.error == ServiceError(StoreFault)
    ensures r.value.Success? ==> (r.value.value.None? <==>
              forall i :: 0 <= i < |Visible(u)| ==> ToLowerInvariant(Visible(u)[i].email) != NormalizeEmail(email))
    ensures r.value.Success? && r.value.value.Some? ==>
              exists i :: && 0 <= i < |Visible(u)| && r.value.value.value == ToDto(Visible(u)[i])
                          && ToLowerInvariant(Visible(u)[i].email) == NormalizeEmail(email)
                          && forall j :: 0 <= j < i ==> ToLowerInvariant(Visible(u)[j].email) != NormalizeEmail(email)
  {
    var u1 := Repository(u, CandidateType).state;
    if fault then Reply(u1, Failure(ServiceError(StoreFault)))
    else
      match Find(Visible(u1), EmailMatcher(NormalizeEmail(email)))
      case None => Reply(u1, Success(None))
      case Some(c) => Reply(u1, Success(Some(ToDto(c))))
  }

  /** The service's lookup is the repository's case-insensitive lookup of the
      trimmed address. */
  lemma LookupIsRepositoryLookupOfTrimmed(u: State, email: string)
    ensures GetCandidateByEmail(u, email, false).value
         == Success(match GetByEmail(Visible(u), Trim(email)) case None => None case Some(c) => Some(ToDto(c)))
  {
    var n := NormalizeEmail(email);
    FindAgrees(Visible(u), EmailMatcher(n), SameEmailIgnoringCase(Trim(email)));
  }

  /** Over a store of trimmed e-mails, such as the service writes, the lookup
      finds what the database's padded comparison finds. */
  lemma LookupAgreesWithSql(u: State, email: string)
    requires EmailsTrimmed(Visible(u))
    ensures GetCandidateByEmail(u, email, false).value
         == Success(match Find(Visible(u), SqlSameEmailIgnoringCase(Trim(email)))
                    case None => None case Some(c) => Some(ToDto(c)))
  {
    LookupIsRepositoryLookupOfTrimmed(u, email);
    GetByEmailAgreesWithSql(Visible(u), Trim(email));
  }

  /** The lookup returns the DTO of the first row that matches. */
  lemma LookupReturnsFirstMatch(u: State, email: string, j: nat)
    requires FirstMatch(Visible(u), EmailMatcher(NormalizeEmail(email))) == Some(j)
    ensures j < |Visible(u)|
    ensures GetCandidateByEmail(u, email, false).value == Success(Some(ToDto(Visible(u)[j])))
  {
  }

  /** Writing then reading: after a successful call from a settled unit of work,
      looking up any spelling of the address that normalises alike returns the
      DTO the call returned. */
  lemma UpsertThenLookup(u: State, dto: CandidateDto, now: DateTime, newId: Guid, fault: bool, email: string)
    requires Settled(u) && newId != EmptyGuid
    requires CreateOrUpdate(u, dto, now, newId, fault).value.Success?
    requires NormalizeEmail(email) == NormalizeEmail(dto.email)
    ensures var r := CreateOrUpdate(u, dto, now, newId, fault);
      GetCandidateByEmail(r.state, email, false).value == Success(Some(r.value.value))
  {
    var n := NormalizeEmail(dto.email);
    var r := CreateOrUpdate(u, dto, now, newId, fault);
    UpsertKeepsSettled(u, dto, now, newId, fault);
    UpsertedRowsMatch(Visible(u), dto, n, now, newId);
    var after := Visible(r.state);
    var j := FirstMatch(after, EmailMatcher(n)).value;
    LookupReturnsFirstMatch(r.state, email, j);
  }

  /** `GetAllCandidatesAsync()`: none for an empty store, otherwise every stored
      candidate's DTO, in store order. A failing read (`fault`) is re-raised
      as a `ServiceError`. The rows and the tracker are left as they were. */
  function GetAllCandidates(u: State, fault: bool): (r: Reply<Result<Option<seq<CandidateDto>>, ServiceError>>)
    ensures r.state.committed == u.committed && r.state.transaction == u.transaction && r.state.tracker == u.tracker
    ensures r.value.Failure? <==> fault
    ensures r.value.Failure? ==> r.value.error == ServiceError(StoreFault)
    ensures r.value.Success? ==> (r.value.value.None? <==> |Visible(u)| == 0)
    ensures r.value.Success? && r.value.value.Some? ==>
              && |r.value.value.value| == |Visible(u)|
              && forall i :: 0 <= i < |Visible(u)| ==> r.value.value.value[i] == ToDto(Visible(u)[i])
  {
    var u1 := Repository(u, CandidateType).state;
    if fault then Reply(u1, Failure(ServiceError(StoreFault)))
    else
      var rows := GetAll(u1);
      if |rows| == 0 then Reply(u1, Success(None))
      else Reply(u1, Success(Some(seq(|rows|, i requires 0 <= i < |rows| => ToDto(rows[i])))))
  }

  /** A create shows up at the end of the list: the list grows by one and its
      last entry is the DTO the create returned. */
  lemma CreateThenListEndsWithNew(u: State, dto: CandidateDto, now: DateTime, newId: Guid)
    requires Settled(u)
    requires EditableFieldsFit(ToEntity(dto)) && Utf16Length(NormalizeEmail(dto.email)) <= MaxEmailLength
    requires Find(Visible(u), EmailMatcher(NormalizeEmail(dto.email))).None?
    requires newId != EmptyGuid && forall i :: 0 <= i < |Visible(u)| ==> Visible(u)[i].id != newId
    ensures var r := CreateOrUpdate(u, dto, now, newId, false);
      var listed := GetAllCandidates(r.state, false).value.value;
      && listed.Some?
      && |listed.value| == |Visible(u)| + 1
      && listed.value[|Visible(u)|] == r.value.value
  {
    CreateAppendsOne(u, dto, now, newId);
  }
}

=== FILE: change_tracker.dfy ===
/** The part of the persistence engine the unit of work drives: the change
    tracker's entries and what `SaveChanges` does with them. Rows are stored in
    a sequence; each tracked entity is keyed by its identifier. */
module ChangeTracker {
  import opened Wrappers
  import opened Domain

  /** `EntityState`: how a tracked entity differs from its stored row. */
  datatype EntityState = Detached | Unchanged | Deleted | Modified | Added

  /** One change-tracker entry. */
  datatype Entry = Entry(entity: Candidate, state: EntityState)

  type Tracker = seq<Entry>

  /** The states `SaveChanges` writes to the store. */
  predicate IsPending(s: EntityState) {
    s == Added || s == Modified || s == Deleted
  }

  /** `ChangeTracker.HasChanges()`. */
  predicate HasChanges(t: Tracker) {
    exists i :: 0 <= i < |t| && IsPending(t[i].state)
  }

  /** The tracker holds at most one entry per identifier. */
  predicate DistinctKeys(t: Tracker) {
    forall i, j :: 0 <= i < j < |t| ==> t[i].entity.id != t[j].entity.id
  }

  /** The entry tracking identifier `id`, if any. */
  function Lookup(t: Tracker, id: Guid): (r: Option<Entry>)
    ensures r.Some? ==> r.value in t && r.value.entity.id == id
    ensures r.None? <==> forall i :: 0 <= i < |t| ==> t[i].entity.id != id
  {
    if t == [] then None
    else if t[0].entity.id == id then Some(t[0])
    else Lookup(t[1..], id)
  }

  /** The tracker without the entry for `id`. */
  function Without(t: Tracker, id: Guid): (r: Tracker)
    ensures forall e :: e in r <==> e in t && e.entity.id != id
    ensures forall e :: e in r ==> e.entity.id != id
    ensures DistinctKeys(t) ==> DistinctKeys(r)
    ensures (forall e :: e in t ==> !IsPending(e.state)) ==> forall e :: e in r ==> !IsPending(e.state)
  {
    if t == [] then []
    else if t[0].entity.id == id then Without(t[1..], id)
    else
      var rest := Without(t[1..], id);
      assert DistinctKeys(t) ==> forall e :: e in rest ==> e.entity.id != t[0].entity.id by {
        if DistinctKeys(t) {
          forall e | e in rest ensures e.entity.id != t[0].entity.id {
            var k :| 0 <= k < |t[1..]| && t[1..][k] == e;
            assert t[k + 1] == e;
          }
        }
      }
      [t[0]] + rest
  }

  /** Starts tracking `e` in state `s`, replacing whatever tracked its key. */
  function Stage(t: Tracker, e: Candidate, s: EntityState): (r: Tracker)
    ensures Lookup(r, e.id) == Some(Entry(e, s))
    ensures forall id :: id != e.id ==> Lookup(r, id) == Lookup(t, id)
    ensures DistinctKeys(t) ==> DistinctKeys(r)
  {
    var rest := Without(t, e.id);
    var r := rest + [Entry(e, s)];
    LookupAfterStage(t, e, s);
    r
  }

  lemma LookupAfterStage(t: Tracker, e: Candidate, s: EntityState)
    ensures var r := Without(t, e.id) + [Entry(e, s)];
      && Lookup(r, e.id) == Some(Entry(e, s))
      && (forall id :: id != e.id ==> Lookup(r, id) == Lookup(t, id))
      && (DistinctKeys(t) ==> DistinctKeys(r))
  {
    var rest := Without(t, e.id);
    var r := rest + [Entry(e, s)];
    assert Lookup(r, e.id) == Some(Entry(e, s)) by {
      LookupAppendMissing(rest, [Entry(e, s)], e.id);
    }
    forall id | id != e.id ensures Lookup(r, id) == Lookup(t, id) {
      LookupWithout(t, e.id, id);
      LookupAppend(rest, [Entry(e, s)], id);
    }
  }

  /** Appending entries does not change what an earlier entry answers. */
  lemma {:induction false} LookupAppend(a: Tracker, b: Tracker, id: Guid)
    requires forall e :: e in b ==> e.entity.id != id
    ensures Lookup(a + b, id) == Lookup(a, id)
  {
    if a != [] {
      assert (a + b)[1..] == a[1..] + b;
      LookupAppend(a[1..], b, id);
    } else {
      assert a + b == b;
    }
  }

  /** A key missing from `a` is looked up in `b`. */
  lemma {:induction false} LookupAppendMissing(a: Tracker, b: Tracker, id: Guid)
    requires forall e :: e in a ==> e.entity.id != id
    ensures Lookup(a + b, id) == Lookup(b, id)
  {
    if a != [] {
      assert (a + b)[1..] == a[1..] + b;
      assert a[0] in a;
      LookupAppendMissing(a[1..], b, id);
    } else {
      assert a + b == b;
    }
  }

  /** Dropping one key leaves the other keys' entries in place. */
  lemma {:induction false} LookupWithout(t: Tracker, gone: Guid, id: Guid)
    requires id != gone
    ensures Lookup(Without(t, gone), id) == Lookup(t, id)
  {
    if t != [] {
      LookupWithout(t[1..], gone, id);
    }
  }

  /** How many entries `SaveChanges` writes. */
  function PendingCount(t: Tracker): (n: nat)
    ensures n <= |t|
    ensures n == 0 <==> !HasChanges(t)
  {
    if t == [] then 0
    else
      var rest := PendingCount(t[1..]);
      assert HasChanges(t) <==> IsPending(t[0].state) || HasChanges(t[1..]) by {
        if HasChanges(t[1..]) {
          var i :| 0 <= i < |t[1..]| && IsPending(t[1..][i].state);
          assert t[i + 1] == t[1..][i];
        }
        if HasChanges(t) {
          var i :| 0 <= i < |t| && IsPending(t[i].state);
          if i > 0 {
            assert t[1..][i - 1] == t[i];
          }
        }
      }
      (if IsPending(t[0].state) then 1 else 0) + rest
  }

  /** The stored row `row` after the tracked changes: replaced by a modified
      entity, dropped if deleted, otherwise kept. */
  function ApplyToRow(row: Candidate, t: Tracker): seq<Candidate> {
    match Lookup(t, row.id)
    case Some(Entry(e, Modified)) => [e]
    case Some(Entry(_, Deleted)) => []
    case _ => [row]
  }

  /** The updates and deletes of `t` applied to the stored rows, in place. */
  function ApplyToRows(rows: seq<Candidate>, t: Tracker): (r: seq<Candidate>)
    ensures |r| <= |rows|
  {
    if rows == [] then [] else ApplyToRow(rows[0], t) + ApplyToRows(rows[1..], t)
  }

  /** The entities of the `Added` entries, in tracker order. */
  function Inserted(t: Tracker): (r: seq<Candidate>)
    ensures |r| <= |t|
    ensures forall c :: c in r <==> Entry(c, Added) in t
  {
    if t == [] then []
    else (if t[0].state == Added then [t[0].entity] else []) + Inserted(t[1..])
  }

  /** The stored rows after all of `t` is written: updates and deletes in
      place, inserts appended. */
  function Apply(rows: seq<Candidate>, t: Tracker): seq<Candidate> {
    ApplyToRows(rows, t) + Inserted(t)
  }

  /** The tracker after a successful save: what was added or modified is now
      unchanged, what was deleted is no longer tracked. */
  function AcceptAll(t: Tracker): (r: Tracker)
    ensures |r| == |t|
    ensures forall i :: 0 <= i < |t| ==> r[i].entity == t[i].entity && !IsPending(r[i].state)
    ensures !HasChanges(r)
  {
    seq(|t|, i requires 0 <= i < |t| =>
      Entry(t[i].entity, match t[i].state
        case Added => Unchanged
        case Modified => Unchanged
        case Deleted => Detached
        case s => s))
  }

  predicate HasRow(rows: seq<Candidate>, id: Guid) {
    exists k :: 0 <= k < |rows| && rows[k].id == id
  }

  /** Every update or delete targets a stored row; otherwise the statement
      affects no row and the engine reports a concurrency conflict. */
  predicate TargetsExist(rows: seq<Candidate>, t: Tracker) {
    forall x :: x in t && (x.state == Modified || x.state == Deleted) ==> HasRow(rows, x.entity.id)
  }

  /** The primary key. */
  predicate UniqueIds(rows: seq<Candidate>) {
    forall i, j :: 0 <= i < j < |rows| ==> rows[i].id != rows[j].id
  }

  /** The unique index on `Email`. */
  predicate UniqueEmails(rows: seq<Candidate>) {
    forall i, j :: 0 <= i < j < |rows| ==> rows[i].email != rows[j].email
  }

  /** Every row fits the table's column widths. */
  predicate ColumnsFit(rows: seq<Candidate>) {
    forall i :: 0 <= i < |rows| ==> FitsColumns(rows[i])
  }

  /** The store's invariant: primary key and the unique e-mail index hold, and
      every value fits its column. */
  predicate WellFormed(rows: seq<Candidate>) {
    UniqueIds(rows) && UniqueEmails(rows) && ColumnsFit(rows)
  }

  /** Why a save was refused. `StoreFault` stands for every failure of the
      database itself (connection, timeout, ...); `ColumnTooLong` is the
      database refusing a value wider than its column. */
  datatype SaveError = StoreFault | ConcurrencyConflict | ColumnTooLong | DuplicateKey | DuplicateEmail

  /** A successful save: the new rows, the accepted tracker and the number of
      entries written. */
  datatype Saved = Saved(rows: seq<Candidate>, tracker: Tracker, count: nat)

  /** `SaveChanges()`: writes every pending entry or none of them. `fault`
      says whether the database fails on its own. */
  function SaveChanges(rows: seq<Candidate>, t: Tracker, fault: bool): (r: Result<Saved, SaveError>)
    ensures r.Success? ==> && r.value.rows == Apply(rows, t)
                           && WellFormed(r.value.rows)
                           && !HasChanges(r.value.tracker)
                           && r.value.count == PendingCount(t)
    ensures r.Failure? <==> fault || !TargetsExist(rows, t) || !WellFormed(Apply(rows, t))
  {
    if fault then Failure(StoreFault)
    else if !TargetsExist(rows, t) then Failure(ConcurrencyConflict)
    else
      var next := Apply(rows, t);
      if !ColumnsFit(next) then Failure(ColumnTooLong)
      else if !UniqueIds(next) then Failure(DuplicateKey)
      else if !UniqueEmails(next) then Failure(DuplicateEmail)
      else Success(Saved(next, AcceptAll(t), PendingCount(t)))
  }

  /** With nothing pending, applying the tracker leaves the rows as they are. */
  lemma {:induction false} ApplyNothingPending(rows: seq<Candidate>, t: Tracker)
    requires !HasChanges(t)
    ensures Apply(rows, t) == rows
  {
    ApplyToRowsNoUpdates(rows, t);
    InsertedNoAdds(t);
  }

  lemma {:induction false} ApplyToRowsNoUpdates(rows: seq<Candidate>, t: Tracker)
    requires forall e :: e in t ==> e.state != Modified && e.state != Deleted
    ensures ApplyToRows(rows, t) == rows
  {
    if rows != [] {
      ApplyToRowsNoUpdates(rows[1..], t);
      assert ApplyToRow(rows[0], t) == [rows[0]];
    }
  }

  lemma InsertedNoAdds(t: Tracker)
    requires forall e :: e in t ==> e.state != Added
    ensures Inserted(t) == []
  {
    if Inserted(t) != [] {
      assert Inserted(t)[0] in Inserted(t);
    }
  }

  /** No pending entry, stated entry by entry. */
  lemma NothingPendingElementwise(t: Tracker)
    requires !HasChanges(t)
    ensures forall x :: x in t ==> !IsPending(x.state)
  {
    forall x | x in t ensures !IsPending(x.state) {
      var i :| 0 <= i < |t| && t[i] == x;
    }
  }

  /** Staging one entity over a tracker with nothing pending leaves that entry
      as the only possibly pending one; it is inserted exactly when staged as
      Added and counts as one change exactly when its state is pending. */
  lemma StageOverQuiet(t: Tracker, e: Candidate, s: EntityState)
    requires !HasChanges(t)
    ensures forall x :: x in Stage(t, e, s) ==> x == Entry(e, s) || !IsPending(x.state)
    ensures Inserted(Stage(t, e, s)) == if s == Added then [e] else []
    ensures PendingCount(Stage(t, e, s)) == if IsPending(s) then 1 else 0
  {
    var rest := Without(t, e.id);
    var last := [Entry(e, s)];
    NothingPendingElementwise(t);
    assert Stage(t, e, s) == rest + last;
    assert last[1..] == [];
    InsertedAppend(rest, last);
    InsertedNoAdds(rest);
    PendingAppend(rest, last);
  }

  /** With no other changes pending, staging one insert appends exactly that
      entity to the rows. */
  lemma StagedInsertAppends(rows: seq<Candidate>, t: Tracker, e: Candidate)
    requires !HasChanges(t)
    ensures Apply(rows, Stage(t, e, Added)) == rows + [e]
    ensures PendingCount(Stage(t, e, Added)) == 1
  {
    StageOverQuiet(t, e, Added);
    ApplyToRowsNoUpdates(rows, Stage(t, e, Added));
  }

  /** With no other changes pending, staging an update of the entity stored
      at `i` replaces that row and nothing else. */
  lemma StagedUpdateReplaces(rows: seq<Candidate>, t: Tracker, e: Candidate, i: nat)
    requires !HasChanges(t)
    requires UniqueIds(rows)
    requires i < |rows| && rows[i].id == e.id
    ensures Apply(rows, Stage(t, e, Modified)) == rows[i := e]
    ensures PendingCount(Stage(t, e, Modified)) == 1
    ensures TargetsExist(rows, Stage(t, e, Modified))
  {
    var r := Stage(t, e, Modified);
    StageOverQuiet(t, e, Modified);
    assert forall k :: 0 <= k < |rows| && k != i ==> rows[k].id != e.id;
    ApplyToRowsOneUpdate(rows, r, e, i);
    assert HasRow(rows, e.id);
    assert Apply(rows, r) == ApplyToRows(rows, r) + [];
  }

  /** When the only update in `t` is `e`, and `e`'s key is stored at `i` and
      nowhere else, applying `t` in place replaces row `i` by `e`. */
  lemma {:induction false} ApplyToRowsOneUpdate(rows: seq<Candidate>, t: Tracker, e: Candidate, i: nat)
    requires Lookup(t, e.id) == Some(Entry(e, Modified))
    requires forall x :: x in t && x.entity.id != e.id ==> x.state != Modified && x.state != Deleted
    requires i < |rows| && rows[i].id == e.id
    requires forall k :: 0 <= k < |rows| && k != i ==> rows[k].id != e.id
    ensures ApplyToRows(rows, t) == rows[i := e]
  {
    var tail := rows[1..];
    assert ApplyToRows(rows, t) == ApplyToRow(rows[0], t) + ApplyToRows(tail, t);
    if i == 0 {
      assert ApplyToRow(rows[0], t) == [e];
      ApplyToRowsNoMatch(tail, t, e);
      UpdateSplitsAtHead(rows, i, e);
    } else {
      ApplyToRowKept(rows[0], t, e);
      ApplyToRowsOneUpdate(tail, t, e, i - 1);
      UpdateSplitsAtHead(rows, i, e);
    }
  }

  /** Replacing position `i` is replacing the head, or else replacing
      position `i - 1` of the tail. */
  lemma UpdateSplitsAtHead(rows: seq<Candidate>, i: nat, e: Candidate)
    requires i < |rows|
    ensures rows[i := e] == if i == 0 then [e] + rows[1..] else [rows[0]] + rows[1..][i - 1 := e]
  {
  }

  /** A row whose key the only update does not touch is kept. */
  lemma ApplyToRowKept(row: Candidate, t: Tracker, e: Candidate)
    requires forall x :: x in t && x.entity.id != e.id ==> x.state != Modified && x.state != Deleted
    requires row.id != e.id
    ensures ApplyToRow(row, t) == [row]
  {
    var l := Lookup(t, row.id);
    if l.Some? {
      assert l.value in t;
    }
  }

  /** Rows whose keys the only update does not touch are kept. */
  lemma {:induction false} ApplyToRowsNoMatch(rows: seq<Candidate>, t: Tracker, e: Candidate)
    requires forall x :: x in t && x.entity.id != e.id ==> x.state != Modified && x.state != Deleted
    requires forall k :: 0 <= k < |rows| ==> rows[k].id != e.id
    ensures ApplyToRows(rows, t) == rows
  {
    if rows != [] {
      ApplyToRowKept(rows[0], t, e);
      var tail := rows[1..];
      assert forall k :: 0 <= k < |tail| ==> tail[k] == rows[k + 1];
      ApplyToRowsNoMatch(tail, t, e);
    }
  }

  lemma {:induction false} InsertedAppend(a: Tracker, b: Tracker)
    ensures Inserted(a + b) == Inserted(a) + Inserted(b)
  {
    if a != [] {
      assert (a + b)[1..] == a[1..] + b;
      InsertedAppend(a[1..], b);
    } else {
      assert a + b == b;
    }
  }

  lemma {:induction false} PendingAppend(a: Tracker, b: Tracker)
    ensures PendingCount(a + b) == PendingCount(a) + PendingCount(b)
  {
    if a != [] {
      assert (a + b)[1..] == a[1..] + b;
      PendingAppend(a[1..], b);
    } else {
      assert a + b == b;
    }
  }

  /** A modified entity whose key is stored is among the rows after the
      update is applied. */
  lemma {:induction false} ModifiedIsApplied(rows: seq<Candidate>, t: Tracker, e: Candidate)
    requires Lookup(t, e.id) == Some(Entry(e, Modified))
    requires HasRow(rows, e.id)
    ensures e in ApplyToRows(rows, t)
  {
    if rows[0].id == e.id {
      assert ApplyToRow(rows[0], t) == [e];
    } else {
      var k :| 0 <= k < |rows| && rows[k].id == e.id;
      assert rows[1..][k - 1] == rows[k];
      ModifiedIsApplied(rows[1..], t, e);
    }
  }
}

=== FILE: domain.dfy ===
/** The `Candidate` entity, its call-time preference enum, and the validation
    its data annotations impose. */
module Domain {
  import opened Wrappers
  import opened Text
  import opened Validation

  /** When a candidate prefers to be called; stored as a byte 1..4. */
  datatype TimeIntervalPreference = Morning | Afternoon | Evening | AnyTime

  /** The byte value each preference is declared with. */
  function PreferenceCode(p: TimeIntervalPreference): nat {
    match p
    case Morning => 1
    case Afternoon => 2
    case Evening => 3
    case AnyTime => 4
  }

  /** The preference a stored byte denotes, if any. */
  function PreferenceFromCode(b: nat): (r: Option<TimeIntervalPreference>)
    ensures r.Some? <==> 1 <= b <= 4
  {
    if b == 1 then Some(Morning)
    else if b == 2 then Some(Afternoon)
    else if b == 3 then Some(Evening)
    else if b == 4 then Some(AnyTime)
    else None
  }

  /** Decoding a preference's byte gives the preference back, and each
      preference has its own byte. */
  lemma PreferenceCodeRoundTrip(p: TimeIntervalPreference, q: TimeIntervalPreference)
    ensures PreferenceFromCode(PreferenceCode(p)) == Some(p)
    ensures PreferenceCode(p) == PreferenceCode(q) ==> p == q
  {
  }

  /** A `Guid`, as its 128-bit value; `Guid.Empty` is 0. */
  type Guid = nat
  const EmptyGuid: Guid := 0

  /** A UTC `DateTime`, as a tick count; `default(DateTime)` is 0. */
  type DateTime = nat
  const DefaultDateTime: DateTime := 0

  const MaxNameLength := 100
  const MaxEmailLength := 150
  const MaxPhoneLength := 20
  const MaxUrlLength := 255
  const MaxCommentsLength := 2000

  /** One stored candidate. Nullable columns are `Option`s. */
  datatype Candidate = Candidate(
    id: Guid,
    firstName: string,
    lastName: string,
    email: string,
    phoneNumber: string,
    callTimePreference: Option<TimeIntervalPreference>,
    linkedInUrl: Option<string>,
    gitHubUrl: Option<string>,
    comments: Option<string>,
    createdAt: DateTime,
    updatedAt: Option<DateTime>)

  /** The errors the validator reports for property `m` of `c`. */
  function MemberErrors(c: Candidate, m: Member, isEmail: string -> bool): (r: seq<ValidationError>)
    ensures NamesOnly(r, m)
    ensures r == [] <==> MemberValid(c, m, isEmail)
  {
    match m
    case FirstName => PropertyErrors(FirstName, Some(c.firstName), true, [MaxLength(MaxNameLength)], isEmail)
    case LastName => PropertyErrors(LastName, Some(c.lastName), true, [MaxLength(MaxNameLength)], isEmail)
    case Email =>
      AllSatisfiedPair(MaxLength(MaxEmailLength), EmailAddress, c.email, isEmail);
      PropertyErrors(Email, Some(c.email), true, [MaxLength(MaxEmailLength), EmailAddress], isEmail)
    case PhoneNumber =>
      AllSatisfiedPair(MaxLength(MaxPhoneLength), PhonePattern, c.phoneNumber, isEmail);
      PropertyErrors(PhoneNumber, Some(c.phoneNumber), true, [MaxLength(MaxPhoneLength), PhonePattern], isEmail)
    case LinkedInUrl => PropertyErrors(LinkedInUrl, c.linkedInUrl, false, [MaxLength(MaxUrlLength)], isEmail)
    case GitHubUrl => PropertyErrors(GitHubUrl, c.gitHubUrl, false, [MaxLength(MaxUrlLength)], isEmail)
    case Comments => PropertyErrors(Comments, c.comments, false, [MaxLength(MaxCommentsLength)], isEmail)
  }

  /** The validator's result for a candidate: every failing property is
      reported, in declaration order, not only the first one.
      `isEmail` is the `[EmailAddress]` format check. */
  function ValidateCandidate(c: Candidate, isEmail: string -> bool): (r: seq<ValidationError>)
    ensures forall m :: HasError(r, m) <==> !MemberValid(c, m, isEmail)
    ensures r == [] <==> IsValid(c, isEmail)
  {
    var r := MemberErrors(c, FirstName, isEmail) + MemberErrors(c, LastName, isEmail)
           + MemberErrors(c, Email, isEmail) + MemberErrors(c, PhoneNumber, isEmail)
           + MemberErrors(c, LinkedInUrl, isEmail) + MemberErrors(c, GitHubUrl, isEmail)
           + MemberErrors(c, Comments, isEmail);
    CollectPropertyErrors(c, isEmail);
    NoErrorsIffValid(c, isEmail, r);
    r
  }

  /** What each property of a candidate must satisfy, written out rule by rule. */
  predicate MemberValid(c: Candidate, m: Member, isEmail: string -> bool) {
    match m
    case FirstName => !IsBlank(c.firstName) && Utf16Length(c.firstName) <= 100
    case LastName => !IsBlank(c.lastName) && Utf16Length(c.lastName) <= 100
    case Email => !IsBlank(c.email) && Utf16Length(c.email) <= 150 && isEmail(c.email)
    case PhoneNumber => !IsBlank(c.phoneNumber) && Utf16Length(c.phoneNumber) <= 20 && MatchesPhonePattern(c.phoneNumber)
    case LinkedInUrl => c.linkedInUrl.None? || Utf16Length(c.linkedInUrl.value) <= 255
    case GitHubUrl => c.gitHubUrl.None? || Utf16Length(c.gitHubUrl.value) <= 255
    case Comments => c.comments.None? || Utf16Length(c.comments.value) <= 2000
  }

  /** Every property of `c` satisfies its annotations. */
  predicate IsValid(c: Candidate, isEmail: string -> bool) {
    forall m :: MemberValid(c, m, isEmail)
  }

  /** The properties an update overwrites fit their columns. The table's string
      columns are `nvarchar(n)` with `n` the property's `[MaxLength]`, counted in
      UTF-16 code units; the database refuses a row that does not fit. */
  predicate EditableFieldsFit(c: Candidate) {
    && Utf16Length(c.firstName) <= MaxNameLength
    && Utf16Length(c.lastName) <= MaxNameLength
    && Utf16Length(c.phoneNumber) <= MaxPhoneLength
    && (c.linkedInUrl.None? || Utf16Length(c.linkedInUrl.value) <= MaxUrlLength)
    && (c.gitHubUrl.None? || Utf16Length(c.gitHubUrl.value) <= MaxUrlLength)
    && (c.comments.None? || Utf16Length(c.comments.value) <= MaxCommentsLength)
  }

  /** Every string property fits its column; the e-mail column is
      `nvarchar(150)`. */
  predicate FitsColumns(c: Candidate) {
    EditableFieldsFit(c) && Utf16Length(c.email) <= MaxEmailLength
  }

  /** A candidate that passes validation fits the table; the converse fails,
      since the columns accept blank and malformed values. */
  lemma ValidFitsColumns(c: Candidate, isEmail: string -> bool)
    requires IsValid(c, isEmail)
    ensures FitsColumns(c)
  {
    assert MemberValid(c, FirstName, isEmail) && MemberValid(c, LastName, isEmail);
    assert MemberValid(c, Email, isEmail) && MemberValid(c, PhoneNumber, isEmail);
    assert MemberValid(c, LinkedInUrl, isEmail) && MemberValid(c, GitHubUrl, isEmail);
    assert MemberValid(c, Comments, isEmail);
  }

  /** Joining the per-property lists loses no property's errors and invents none. */
  lemma CollectPropertyErrors(c: Candidate, isEmail: string -> bool)
    ensures var r := MemberErrors(c, FirstName, isEmail) + MemberErrors(c, LastName, isEmail)
           + MemberErrors(c, Email, isEmail) + MemberErrors(c, PhoneNumber, isEmail)
           + MemberErrors(c, LinkedInUrl, isEmail) + MemberErrors(c, GitHubUrl, isEmail)
           + MemberErrors(c, Comments, isEmail);
      forall m :: HasError(r, m) <==> !MemberValid(c, m, isEmail)
  {
    var e0, e1, e2, e3 := MemberErrors(c, FirstName, isEmail), MemberErrors(c, LastName, isEmail),
                          MemberErrors(c, Email, isEmail), MemberErrors(c, PhoneNumber, isEmail);
    var e4, e5, e6 := MemberErrors(c, LinkedInUrl, isEmail), MemberErrors(c, GitHubUrl, isEmail),
                      MemberErrors(c, Comments, isEmail);
    var r := e0 + e1 + e2 + e3 + e4 + e5 + e6;
    forall m: Member ensures HasError(r, m) <==> !MemberValid(c, m, isEmail) {
      HasErrorAppend(e0 + e1 + e2 + e3 + e4 + e5, e6, m);
      HasErrorAppend(e0 + e1 + e2 + e3 + e4, e5, m);
      HasErrorAppend(e0 + e1 + e2 + e3, e4, m);
      HasErrorAppend(e0 + e1 + e2, e3, m);
      HasErrorAppend(e0 + e1, e2, m);
      HasErrorAppend(e0, e1, m);
      HasErrorOfMember(c, FirstName, m, isEmail);
      HasErrorOfMember(c, LastName, m, isEmail);
      HasErrorOfMember(c, Email, m, isEmail);
      HasErrorOfMember(c, PhoneNumber, m, isEmail);
      HasErrorOfMember(c, LinkedInUrl, m, isEmail);
      HasErrorOfMember(c, GitHubUrl, m, isEmail);
      HasErrorOfMember(c, Comments, m, isEmail);
    }
  }

  /** Property `m'`'s errors name `m` exactly when `m' == m` and `m` is invalid. */
  lemma HasErrorOfMember(c: Candidate, m': Member, m: Member, isEmail: string -> bool)
    ensures HasError(MemberErrors(c, m', isEmail), m) <==> m' == m && !MemberValid(c, m, isEmail)
  {
    var r := MemberErrors(c, m', isEmail);
    if r != [] {
      assert r[0] in r;
    }
  }

  /** An error list that names exactly the invalid properties is empty exactly
      when every property is valid. */
  lemma NoErrorsIffValid(c: Candidate, isEmail: string -> bool, r: seq<ValidationError>)
    requires forall m :: HasError(r, m) <==> !MemberValid(c, m, isEmail)
    ensures r == [] <==> IsValid(c, isEmail)
  {
    if r != [] {
      var m := r[0].member;
      assert HasError(r, m) by {
        assert r[0] in r;
      }
    }
  }

  /** A phone number within the length limit that the pattern rejects gets
      exactly one error, the pattern error. */
  lemma MalformedPhoneOneError(c: Candidate, isEmail: string -> bool)
    requires !IsBlank(c.phoneNumber) && Utf16Length(c.phoneNumber) <= 20 && !MatchesPhonePattern(c.phoneNumber)
    ensures MemberErrors(c, PhoneNumber, isEmail) == [ValidationError(PhoneNumber, PhonePattern)]
  {
    var p := c.phoneNumber;
    var rules := [MaxLength(MaxPhoneLength), PhonePattern];
    assert Satisfies(Required, p, isEmail);
    assert Failing(PhoneNumber, p, rules[1..], isEmail) == [ValidationError(PhoneNumber, PhonePattern)] by {
      assert rules[1..][1..] == [];
    }
  }

  /** Validation does not stop at the first failing property: a candidate with
      a blank first name and a malformed phone gets both errors, and a blank
      required field hides that field's other rules. */
  lemma BlankNameAndBadPhoneGiveTwoErrors(c: Candidate, isEmail: string -> bool)
    requires IsBlank(c.firstName)
    requires !IsBlank(c.phoneNumber) && Utf16Length(c.phoneNumber) <= 20 && !MatchesPhonePattern(c.phoneNumber)
    requires MemberValid(c, LastName, isEmail) && MemberValid(c, Email, isEmail)
    requires c.linkedInUrl == None && c.gitHubUrl == None && c.comments == None
    ensures ValidateCandidate(c, isEmail)
         == [ValidationError(FirstName, Required), ValidationError(PhoneNumber, PhonePattern)]
  {
    MalformedPhoneOneError(c, isEmail);
    assert MemberErrors(c, FirstName, isEmail) == [ValidationError(FirstName, Required)];
    assert MemberErrors(c, LastName, isEmail) == [];
    assert MemberErrors(c, Email, isEmail) == [];
    assert MemberErrors(c, LinkedInUrl, isEmail) == [];
    assert MemberErrors(c, GitHubUrl, isEmail) == [];
    assert MemberErrors(c, Comments, isEmail) == [];
  }

  /** A phone made of letters is rejected. */
  lemma LettersAreNotAPhone()
    ensures !MatchesPhonePattern("InvalidPhone123")
  {
  }

  /** The sample candidate with an international phone number passes with no
      errors, given an e-mail address the format check accepts. */
  lemma SampleCandidateIsValid(isEmail: string -> bool, id: Guid, createdAt: DateTime)
    requires isEmail("asem@microsoft.com")
    ensures ValidateCandidate(
              Candidate(id, "Asem", "Adel", "asem@microsoft.com", "+201061103073",
                        None, None, None, None, createdAt, None), isEmail) == []
  {
    SampleMembersValid(Candidate(id, "Asem", "Adel", "asem@microsoft.com", "+201061103073",
                                 None, None, None, None, createdAt, None), isEmail);
  }

  /** The sample's properties, one at a time. */
  lemma SampleMembersValid(c: Candidate, isEmail: string -> bool)
    requires c.firstName == "Asem" && c.lastName == "Adel" && c.email == "asem@microsoft.com"
    requires c.phoneNumber == "+201061103073" && isEmail(c.email)
    requires c.linkedInUrl == None && c.gitHubUrl == None && c.comments == None
    ensures IsValid(c, isEmail)
  {
    assert MemberValid(c, FirstName, isEmail) by { ShortAndNotBlank(c.firstName, MaxNameLength); }
    assert MemberValid(c, LastName, isEmail) by { ShortAndNotBlank(c.lastName, MaxNameLength); }
    assert MemberValid(c, Email, isEmail) by { ShortAndNotBlank(c.email, MaxEmailLength); }
    assert MemberValid(c, PhoneNumber, isEmail) by { SamplePhoneValid(c.phoneNumber); }
    forall m ensures MemberValid(c, m, isEmail) {
      if m.LinkedInUrl? || m.GitHubUrl? || m.Comments? {
      }
    }
  }

  /** The sample's international phone number passes `[Required]`,
      `[MaxLength(20)]` and the phone pattern. */
  lemma SamplePhoneValid(p: string)
    requires p == "+201061103073"
    ensures !IsBlank(p) && Utf16Length(p) <= MaxPhoneLength && MatchesPhonePattern(p)
  {
    assert MatchesPhonePattern(p) by {
      assert PhoneBody(p) == "201061103073";
    }
    PhonePatternBoundsLength(p);
    assert !IsWhiteSpace(p[0]);
  }

  /** A short string that starts with a non-blank character passes both
      `[Required]` and `[MaxLength(limit)]`. */
  lemma ShortAndNotBlank(s: string, limit: nat)
    requires s != [] && !IsWhiteSpace(s[0]) && 2 * |s| <= limit
    ensures !IsBlank(s) && Utf16Length(s) <= limit
  {
  }

  /** `[MaxLength]` counts UTF-16 code units: a first name of 100 emoji is 100
      characters but 200 code units, and is too long. */
  lemma AstralNameTooLong(c: Candidate, isEmail: string -> bool)
    requires c.firstName == seq(100, i => '\U{1F600}')
    ensures !MemberValid(c, FirstName, isEmail)
    ensures MemberErrors(c, FirstName, isEmail) == [ValidationError(FirstName, MaxLength(MaxNameLength))]
  {
    Utf16LengthOfAstral(c.firstName);
    assert !IsBlank(c.firstName) by { assert !IsWhiteSpace(c.firstName[0]); }
  }
}

=== FILE: dtos.dfy ===
/** `CandidateDto`, the shape the API accepts and returns, and the validation
    its data annotations impose. */
module Dtos {
  import opened Wrappers
  import opened Text
  import opened Validation
  import opened Domain

  /** The candidate fields a client sends and receives: everything except the
      identifier and the two timestamps. */
  datatype CandidateDto = CandidateDto(
    firstName: string,
    lastName: string,
    email: string,
    phoneNumber: string,
    callTimePreference: Option<TimeIntervalPreference>,
    linkedInUrl: Option<string>,
    gitHubUrl: Option<string>,
    comments: Option<string>)

  /** `new CandidateDto()`: the four required strings start out empty. */
  const DefaultDto := CandidateDto("", "", "", "", None, None, None, None)

  /** What each property of a DTO must satisfy: the names only need to be
      non-blank, the e-mail has no length limit, the optional fields are free. */
  predicate DtoMemberValid(d: CandidateDto, m: Member, isEmail: string -> bool) {
    match m
    case FirstName => !IsBlank(d.firstName)
    case LastName => !IsBlank(d.lastName)
    case Email => !IsBlank(d.email) && isEmail(d.email)
    case PhoneNumber => !IsBlank(d.phoneNumber) && Utf16Length(d.phoneNumber) <= 20 && MatchesPhonePattern(d.phoneNumber)
    case LinkedInUrl => true
    case GitHubUrl => true
    case Comments => true
  }

  /** Every property of `d` satisfies its annotations. */
  predicate IsValidDto(d: CandidateDto, isEmail: string -> bool) {
    forall m :: DtoMemberValid(d, m, isEmail)
  }

  /** The errors the validator reports for property `m` of a DTO. */
  function DtoMemberErrors(d: CandidateDto, m: Member, isEmail: string -> bool): (r: seq<ValidationError>)
    ensures NamesOnly(r, m)
    ensures r == [] <==> DtoMemberValid(d, m, isEmail)
  {
    match m
    case FirstName => PropertyErrors(FirstName, Some(d.firstName), true, [], isEmail)
    case LastName => PropertyErrors(LastName, Some(d.lastName), true, [], isEmail)
    case Email =>
      assert [EmailAddress][1..] == [];
      PropertyErrors(Email, Some(d.email), true, [EmailAddress], isEmail)
    case PhoneNumber =>
      AllSatisfiedPair(MaxLength(MaxPhoneLength), PhonePattern, d.phoneNumber, isEmail);
      PropertyErrors(PhoneNumber, Some(d.phoneNumber), true, [MaxLength(MaxPhoneLength), PhonePattern], isEmail)
    case LinkedInUrl => []
    case GitHubUrl => []
    case Comments => []
  }

  /** The validator's result for a DTO, every failing property reported. */
  function ValidateDto(d: CandidateDto, isEmail: string -> bool): (r: seq<ValidationError>)
    ensures forall m :: HasError(r, m) <==> !DtoMemberValid(d, m, isEmail)
    ensures r == [] <==> IsValidDto(d, isEmail)
  {
    var r := DtoMemberErrors(d, FirstName, isEmail) + DtoMemberErrors(d, LastName, isEmail)
           + DtoMemberErrors(d, Email, isEmail) + DtoMemberErrors(d, PhoneNumber, isEmail);
    CollectDtoErrors(d, isEmail);
    NoDtoErrorsIffValid(d, isEmail, r);
    r
  }

  /** Property `m'`'s errors name `m` exactly when `m' == m` and `m` is invalid. */
  lemma HasDtoErrorOfMember(d: CandidateDto, m': Member, m: Member, isEmail: string -> bool)
    ensures HasError(DtoMemberErrors(d, m', isEmail), m) <==> m' == m && !DtoMemberValid(d, m, isEmail)
  {
    var r := DtoMemberErrors(d, m', isEmail);
    if r != [] {
      assert r[0] in r;
    }
  }

  /** Joining the four per-property lists loses no property's errors. */
  lemma CollectDtoErrors(d: CandidateDto, isEmail: string -> bool)
    ensures var r := DtoMemberErrors(d, FirstName, isEmail) + DtoMemberErrors(d, LastName, isEmail)
           + DtoMemberErrors(d, Email, isEmail) + DtoMemberErrors(d, PhoneNumber, isEmail);
      forall m :: HasError(r, m) <==> !DtoMemberValid(d, m, isEmail)
  {
    var e0, e1 := DtoMemberErrors(d, FirstName, isEmail), DtoMemberErrors(d, LastName, isEmail);
    var e2, e3 := DtoMemberErrors(d, Email, isEmail), DtoMemberErrors(d, PhoneNumber, isEmail);
    forall m: Member ensures HasError(e0 + e1 + e2 + e3, m) <==> !DtoMemberValid(d, m, isEmail) {
      HasErrorAppend(e0 + e1 + e2, e3, m);
      HasErrorAppend(e0 + e1, e2, m);
      HasErrorAppend(e0, e1, m);
      HasDtoErrorOfMember(d, FirstName, m, isEmail);
      HasDtoErrorOfMember(d, LastName, m, isEmail);
      HasDtoErrorOfMember(d, Email, m, isEmail);
      HasDtoErrorOfMember(d, PhoneNumber, m, isEmail);
    }
  }

  /** An error list that names exactly the invalid properties is empty exactly
      when the DTO is valid. */
  lemma NoDtoErrorsIffValid(d: CandidateDto, isEmail: string -> bool, r: seq<ValidationError>)
    requires forall m :: HasError(r, m) <==> !DtoMemberValid(d, m, isEmail)
    ensures r == [] <==> IsValidDto(d, isEmail)
  {
    if r != [] {
      var m := r[0].member;
      assert HasError(r, m) by {
        assert r[0] in r;
      }
    }
  }

  /** A default-constructed DTO fails on exactly its four required fields, each
      with the `Required` error, whatever the e-mail format check says. */
  lemma DefaultDtoFailsRequiredFields(isEmail: string -> bool)
    ensures ValidateDto(DefaultDto, isEmail) == [
      ValidationError(FirstName, Required), ValidationError(LastName, Required),
      ValidationError(Email, Required), ValidationError(PhoneNumber, Required)]
  {
    assert DtoMemberErrors(DefaultDto, FirstName, isEmail) == [ValidationError(FirstName, Required)];
    assert DtoMemberErrors(DefaultDto, LastName, isEmail) == [ValidationError(LastName, Required)];
    assert DtoMemberErrors(DefaultDto, Email, isEmail) == [ValidationError(Email, Required)];
    assert DtoMemberErrors(DefaultDto, PhoneNumber, isEmail) == [ValidationError(PhoneNumber, Required)];
  }
}

=== FILE: generic_repository.dfy ===
/** The generic repository: queries over one entity set, the `Filter` query with
    its optional paging, and the three staging operations. The queries are
    written for any entity type over the rows they read; the staging
    operations work on the unit of work's tracker. */
module GenericRepository {
  import opened Wrappers
  import opened Domain
  import opened ChangeTracker
  import opened UnitOfWork

  /** `GetAllAsync()`: the rows of the set, in store order; that is, what
      `FindAllAsync` selects with a condition every row meets. */
  function GetAll(u: State): (r: seq<Candidate>)
    ensures r == FindAll(Visible(u), Always)
  {
    FindAllKeepsAll(Visible(u), Always);
    Visible(u)
  }

  /** The condition every row meets. */
  predicate Always(c: Candidate) {
    true
  }

  /** Changes that are only staged are not written: adding, updating or
      deleting leaves the rows `GetAllAsync` reads as they were until the unit
      of work commits. Reads here do not go through the tracker. */
  lemma StagedChangesAreNotListed(u: State, e: Candidate, newId: Guid)
    ensures GetAll(Add(u, e, newId)) == GetAll(u)
    ensures GetAll(Update(u, e, newId)) == GetAll(u)
    ensures GetAll(Delete(u, e)) == GetAll(u)
  {
  }

  /** After a successful commit, `GetAllAsync` lists the rows with the staged
      changes applied. */
  lemma CommitIsListed(u: State, fault: bool)
    requires CommitAsync(u, fault).value.Success?
    ensures GetAll(CommitAsync(u, fault).state) == Apply(GetAll(u), u.tracker)
  {
  }

  /** `FindAllAsync(match)`: the rows that satisfy `p`, in store order. */
  function FindAll<T(!new)>(rows: seq<T>, p: T -> bool): (r: seq<T>)
    ensures |r| <= |rows|
    ensures forall x :: x in r <==> x in rows && p(x)
  {
    if rows == [] then []
    else
      assert rows == [rows[0]] + rows[1..];
      (if p(rows[0]) then [rows[0]] else []) + FindAll(rows[1..], p)
  }

  /** A condition every row meets selects all of them, in order. */
  lemma {:induction false} FindAllKeepsAll<T(!new)>(rows: seq<T>, p: T -> bool)
    requires forall x :: x in rows ==> p(x)
    ensures FindAll(rows, p) == rows
  {
    if rows != [] {
      assert forall x :: x in rows[1..] ==> x in rows;
      FindAllKeepsAll(rows[1..], p);
    }
  }

  /** Selecting keeps every satisfying row as often as it occurs and drops
      every other row. */
  lemma {:induction false} FindAllCounts<T(!new)>(rows: seq<T>, p: T -> bool, x: T)
    ensures multiset(FindAll(rows, p))[x] == if p(x) then multiset(rows)[x] else 0
  {
    if rows != [] {
      assert rows == [rows[0]] + rows[1..];
      FindAllCounts(rows[1..], p, x);
    }
  }

  /** Selecting from two runs of rows is selecting from each, in order. */
  lemma {:induction false} FindAllAppend<T(!new)>(a: seq<T>, b: seq<T>, p: T -> bool)
    ensures FindAll(a + b, p) == FindAll(a, p) + FindAll(b, p)
  {
    if a == [] {
      assert a + b == b;
    } else {
      assert (a + b)[1..] == a[1..] + b;
      FindAllAppend(a[1..], b, p);
    }
  }

  /** The position of the first row satisfying `p`, if any. */
  function FirstMatch<T(!new)>(rows: seq<T>, p: T -> bool): (r: Option<nat>)
    ensures r.Some? ==> r.value < |rows| && p(rows[r.value]) && forall j :: 0 <= j < r.value ==> !p(rows[j])
    ensures r.None? <==> forall i :: 0 <= i < |rows| ==> !p(rows[i])
  {
    if rows == [] then None
    else if p(rows[0]) then Some(0)
    else
      match FirstMatch(rows[1..], p)
      case None => None
      case Some(k) => Some(k + 1)
  }

  /** `FindAsync(match)`, that is `FirstOrDefaultAsync`: the first row that
      satisfies `p`, or none. */
  function Find<T(!new)>(rows: seq<T>, p: T -> bool): (r: Option<T>)
    ensures r.None? <==> forall i :: 0 <= i < |rows| ==> !p(rows[i])
    ensures r.Some? ==> exists i :: 0 <= i < |rows| && rows[i] == r.value && p(rows[i])
                                    && forall j :: 0 <= j < i ==> !p(rows[j])
  {
    match FirstMatch(rows, p)
    case None => None
    case Some(i) => Some(rows[i])
  }

  /** The first match is the head of the list of all matches. */
  lemma {:induction false} FindIsHeadOfFindAll<T(!new)>(rows: seq<T>, p: T -> bool)
    ensures Find(rows, p) == if FindAll(rows, p) == [] then None else Some(FindAll(rows, p)[0])
  {
    if rows != [] && !p(rows[0]) {
      FindIsHeadOfFindAll(rows[1..], p);
      assert Find(rows, p) == Find(rows[1..], p);
    }
  }

  /** Two predicates that agree on every row find the same row. */
  lemma {:induction false} FindAgrees<T(!new)>(rows: seq<T>, p: T -> bool, q: T -> bool)
    requires forall x :: x in rows ==> p(x) == q(x)
    ensures Find(rows, p) == Find(rows, q)
  {
    if rows != [] {
      assert rows[0] in rows;
      assert forall x :: x in rows[1..] ==> x in rows;
      FindAgrees(rows[1..], p, q);
      if !p(rows[0]) {
        assert Find(rows, p) == Find(rows[1..], p);
        assert Find(rows, q) == Find(rows[1..], q);
      }
    }
  }

  /** `AnyAsync(match)`: some row satisfies `p`. */
  function Any<T(!new)>(rows: seq<T>, p: T -> bool): (r: bool)
    ensures r <==> Find(rows, p).Some?
  {
    exists i :: 0 <= i < |rows| && p(rows[i])
  }

  const MinInt32: int := -0x8000_0000
  const MaxInt32: int := 0x7FFF_FFFF

  /** A C# `int`. */
  type Int32 = x: int | -0x8000_0000 <= x <= 0x7FFF_FFFF

  /** Unchecked 32-bit arithmetic: the value congruent to `x` modulo 2^32. */
  function Wrap32(x: int): (r: Int32)
    ensures (r - x) % 0x1_0000_0000 == 0
    ensures MinInt32 <= x <= MaxInt32 ==> r == x
  {
    var m := x % 0x1_0000_0000;
    if m <= MaxInt32 then m else m - 0x1_0000_0000
  }

  /** `Skip(n)`: drops the first `n` rows; a count below one drops nothing. */
  function Skip<T>(s: seq<T>, n: int): (r: seq<T>)
    ensures |r| == if n <= 0 then |s| else if n >= |s| then 0 else |s| - n
    ensures r == s[|s| - |r|..]
  {
    if n <= 0 then s else if n >= |s| then [] else s[n..]
  }

  /** `Take(n)`: keeps the first `n` rows; a count below one keeps none. */
  function Take<T>(s: seq<T>, n: int): (r: seq<T>)
    ensures |r| == if n <= 0 then 0 else if n >= |s| then |s| else n
    ensures r == s[..|r|]
  {
    if n <= 0 then [] else if n >= |s| then s else s[..n]
  }

  /** The rows `Filter` pages through: those `filter` keeps, in the order
      `orderBy` gives them. */
  function Ordered<T(!new)>(rows: seq<T>, filter: Option<T -> bool>, orderBy: Option<seq<T> -> seq<T>>): seq<T> {
    var matched := if filter.Some? then FindAll(rows, filter.value) else rows;
    if orderBy.Some? then orderBy.value(matched) else matched
  }

  /** `Filter(filter, orderBy, includeProperties, page, pageSize)`: paging
      applies only when both `page` and `pageSize` are given, and skips
      `(page - 1) * pageSize` rows computed in 32-bit arithmetic. */
  function Filter<T(!new)>(rows: seq<T>, filter: Option<T -> bool>, orderBy: Option<seq<T> -> seq<T>>,
                     page: Option<Int32>, pageSize: Option<Int32>): (r: seq<T>)
    ensures |r| <= |Ordered(rows, filter, orderBy)|
    ensures page.Some? && pageSize.Some? ==> |r| <= if pageSize.value <= 0 then 0 else pageSize.value
    ensures forall x :: x in r ==> x in Ordered(rows, filter, orderBy)
  {
    var q := Ordered(rows, filter, orderBy);
    if page.Some? && pageSize.Some? then Page(q, page.value, pageSize.value) else q
  }

  /** `Skip((page - 1) * pageSize).Take(pageSize)`, in 32-bit arithmetic. */
  function Page<T(!new)>(q: seq<T>, page: Int32, pageSize: Int32): (r: seq<T>)
    ensures |r| <= |q|
    ensures |r| <= if pageSize <= 0 then 0 else pageSize
    ensures forall x :: x in r ==> x in q
  {
    var skipped := Skip(q, Wrap32(Wrap32(page - 1) * pageSize));
    var r := Take(skipped, pageSize);
    assert forall x :: x in r ==> x in q by {
      forall x | x in r ensures x in q {
        var i :| 0 <= i < |r| && r[i] == x;
        assert skipped[i] == q[|q| - |skipped| + i];
      }
    }
    r
  }

  /** Without both paging arguments `Filter` returns every kept row; with no
      filter and no ordering either, that is `GetAllAsync`'s list. */
  lemma FilterWithoutPaging<T(!new)>(rows: seq<T>, filter: Option<T -> bool>, orderBy: Option<seq<T> -> seq<T>>,
                               page: Option<Int32>, pageSize: Option<Int32>)
    requires page.None? || pageSize.None?
    ensures Filter(rows, filter, orderBy, page, pageSize) == Ordered(rows, filter, orderBy)
    ensures Filter(rows, None, None, page, pageSize) == rows
  {
  }

  /** Page `p` of size `s` is the slice `[(p-1)*s, (p-1)*s + s)` of the kept,
      ordered rows, clipped to their length, as long as the offset fits an `int`. */
  lemma FilterPageIsSlice<T(!new)>(rows: seq<T>, filter: Option<T -> bool>, orderBy: Option<seq<T> -> seq<T>>,
                                   p: Int32, s: Int32)
    requires p >= 1 && s >= 0 && (p - 1) * s <= MaxInt32
    ensures Filter(rows, filter, orderBy, Some(p), Some(s)) == Slice(Ordered(rows, filter, orderBy), (p - 1) * s, s)
  {
    var q := Ordered(rows, filter, orderBy);
    var off := PageOffset(p, s);
    TakeSkipIsSlice(q, off, s);
    assert Filter(rows, filter, orderBy, Some(p), Some(s)) == Page(q, p, s);
  }

  /** The rows of `q` from position `off`, at most `n` of them. */
  function Slice<T>(q: seq<T>, off: nat, n: nat): (r: seq<T>)
    ensures |r| <= n
  {
    var start := if off < |q| then off else |q|;
    var end := if start + n < |q| then start + n else |q|;
    q[start..end]
  }

  /** Without overflow, the offset of page `p` is `(p - 1) * s`. */
  lemma PageOffset(p: Int32, s: Int32) returns (off: nat)
    requires p >= 1 && s >= 0 && (p - 1) * s <= MaxInt32
    ensures off == (p - 1) * s == Wrap32(Wrap32(p - 1) * s)
  {
    off := (p - 1) * s;
  }

  /** Skipping `off` rows and taking `s` is the clipped slice starting at `off`. */
  lemma TakeSkipIsSlice<T>(q: seq<T>, off: nat, s: nat)
    ensures Take(Skip(q, off), s) == Slice(q, off, s)
  {
  }

  /** In unchecked arithmetic a large enough page wraps around to the first
      page's offset: page 65537 of size 65536 starts at row 0. */
  lemma PageOffsetWraps()
    ensures Wrap32(Wrap32(65537 - 1) * 65536) == 0
  {
  }

  /** Pages `1..n` of size `s` of rows `q`, one after the other. */
  function Pages<T(!new)>(q: seq<T>, n: nat, s: Int32): seq<T>
    requires n <= MaxInt32
  {
    if n == 0 then [] else Pages(q, n - 1, s) + Filter(q, None, None, Some(n as Int32), Some(s))
  }

  /** Consecutive pages tile the rows: pages `1..n` of size `s` are the first
      `n * s` rows, clipped to the length. */
  lemma {:induction false} PagesTile<T(!new)>(q: seq<T>, n: nat, s: Int32)
    requires s > 0 && n <= MaxInt32 && n * s <= MaxInt32
    ensures Pages(q, n, s) == Slice(q, 0, n * s)
  {
    if n > 0 {
      var before := PreviousPagesEnd(n, s);
      PagesTile(q, n - 1, s);
      var page := Filter(q, None, None, Some(n as Int32), Some(s));
      assert Pages(q, n, s) == Pages(q, n - 1, s) + page;
      FilterPageIsSlice(q, None, None, n as Int32, s);
      assert Ordered(q, None, None) == q;
      assert page == Slice(q, before, s);
      SliceConcat(q, before, s);
    }
  }

  /** Pages `1..n-1` end where page `n` starts. */
  lemma PreviousPagesEnd(n: nat, s: Int32) returns (before: nat)
    requires n > 0 && s > 0 && n * s <= MaxInt32
    ensures before == (n - 1) * s && before + s == n * s && before <= MaxInt32
  {
    before := (n - 1) * s;
  }

  /** Two adjacent slices from the start make one. */
  lemma SliceConcat<T>(q: seq<T>, a: nat, b: nat)
    ensures Slice(q, 0, a) + Slice(q, a, b) == Slice(q, 0, a + b)
  {
  }

  /** The key an inserted entity gets: its own, or a generated one when it
      still holds `Guid.Empty`. */
  function AssignedKey(e: Candidate, newId: Guid): Guid {
    if e.id == EmptyGuid then newId else e.id
  }

  /** `AddAsync(entity)`: tracks the entity as Added, under a generated key if it
      has none. Nothing is written until the unit of work commits. */
  function Add(u: State, e: Candidate, newId: Guid): (r: State)
    ensures r.committed == u.committed && r.transaction == u.transaction && r.repositories == u.repositories
    ensures Lookup(r.tracker, AssignedKey(e, newId)) == Some(Entry(e.(id := AssignedKey(e, newId)), Added))
    ensures forall id :: id != AssignedKey(e, newId) ==> Lookup(r.tracker, id) == Lookup(u.tracker, id)
  {
    u.(tracker := Stage(u.tracker, e.(id := AssignedKey(e, newId)), Added))
  }

  /** `Update(entity)`: tracks the entity as Modified; one whose key was never
      set is tracked as Added under a generated key instead. */
  function Update(u: State, e: Candidate, newId: Guid): (r: State)
    ensures r.committed == u.committed && r.transaction == u.transaction && r.repositories == u.repositories
    ensures e.id != EmptyGuid ==> Lookup(r.tracker, e.id) == Some(Entry(e, Modified))
    ensures e.id == EmptyGuid ==> r == Add(u, e, newId)
    ensures forall id :: id != AssignedKey(e, newId) ==> Lookup(r.tracker, id) == Lookup(u.tracker, id)
  {
    if e.id == EmptyGuid then Add(u, e, newId)
    else u.(tracker := Stage(u.tracker, e, Modified))
  }

  /** `Delete(entity)`, that is `Remove`: an entity still waiting to be inserted
      is simply no longer tracked; any other is tracked as Deleted. */
  function Delete(u: State, e: Candidate): (r: State)
    ensures r.committed == u.committed && r.transaction == u.transaction && r.repositories == u.repositories
    ensures Lookup(r.tracker, e.id) == Some(Entry(e, if WaitingInsert(u.tracker, e.id) then Detached else Deleted))
    ensures forall id :: id != e.id ==> Lookup(r.tracker, id) == Lookup(u.tracker, id)
  {
    var s := if WaitingInsert(u.tracker, e.id) then Detached else Deleted;
    u.(tracker := Stage(u.tracker, e, s))
  }

  /** The entity keyed `id` is tracked as Added. */
  predicate WaitingInsert(t: Tracker, id: Guid) {
    Lookup(t, id).Some? && Lookup(t, id).value.state == Added
  }

  /** Deleting what was just added cancels the insert: nothing is pending and
      a commit leaves the rows as they were. */
  lemma DeleteCancelsAdd(u: State, e: Candidate, newId: Guid)
    requires !HasChanges(u.tracker)
    ensures var r := Delete(Add(u, e, newId), e.(id := AssignedKey(e, newId)));
      && !HasChanges(r.tracker)
      && Apply(Visible(u), r.tracker) == Visible(u)
  {
    var k := AssignedKey(e, newId);
    var e' := e.(id := k);
    var added := Add(u, e, newId);
    assert WaitingInsert(added.tracker, k);
    var r := Delete(added, e');
    NothingPendingElementwise(u.tracker);
    var inner := Without(added.tracker, k);
    assert r.tracker == inner + [Entry(e', Detached)];
    assert forall x :: x in inner ==> x in Without(u.tracker, k) by {
      forall x | x in inner ensures x in Without(u.tracker, k) {
        assert x in added.tracker && x.entity.id != k;
      }
    }
    assert forall i :: 0 <= i < |r.tracker| ==> !IsPending(r.tracker[i].state) by {
      forall i | 0 <= i < |r.tracker| ensures !IsPending(r.tracker[i].state) {
        assert r.tracker[i] in r.tracker;
      }
    }
    ApplyNothingPending(Visible(u), r.tracker);
  }

  /** Appending a row that fits the columns and whose key and e-mail are new
      keeps the store well formed. */
  lemma AppendKeepsWellFormed(rows: seq<Candidate>, c: Candidate)
    requires WellFormed(rows) && FitsColumns(c)
    requires forall i :: 0 <= i < |rows| ==> rows[i].id != c.id && rows[i].email != c.email
    ensures WellFormed(rows + [c])
  {
  }

  /** Replacing a row by one that fits the columns, with the same key and an
      e-mail no other row has, keeps the store well formed. */
  lemma ReplaceKeepsWellFormed(rows: seq<Candidate>, i: nat, c: Candidate)
    requires WellFormed(rows) && FitsColumns(c)
    requires i < |rows| && rows[i].id == c.id
    requires forall j :: 0 <= j < |rows| && j != i ==> rows[j].email != c.email
    ensures WellFormed(rows[i := c])
  {
  }

  /** Adding an entity that fits the columns, with a new key and a new e-mail,
      and committing, with nothing else pending and a healthy database,
      appends exactly that row. */
  lemma AddThenCommitAppends(u: State, e: Candidate, newId: Guid)
    requires !HasChanges(u.tracker) && FitsColumns(e)
    requires WellFormed(Visible(u))
    requires forall i :: 0 <= i < |Visible(u)| ==>
               Visible(u)[i].id != AssignedKey(e, newId) && Visible(u)[i].email != e.email
    ensures var c := CommitAsync(Add(u, e, newId), false);
      && c.value == Success(1)
      && Visible(c.state) == Visible(u) + [e.(id := AssignedKey(e, newId))]
  {
    var e' := e.(id := AssignedKey(e, newId));
    StagedInsertAppends(Visible(u), u.tracker, e');
    AppendKeepsWellFormed(Visible(u), e');
    StagedHasNoUpdates(u.tracker, e', Added);
  }

  /** Staging an entity over a tracker with nothing pending, in a state other
      than Modified or Deleted, stages no update or delete. */
  lemma StagedHasNoUpdates(t: Tracker, e: Candidate, s: EntityState)
    requires !HasChanges(t)
    requires s != Modified && s != Deleted
    ensures forall x :: x in Stage(t, e, s) ==> x.state != Modified && x.state != Deleted
  {
    NothingPendingElementwise(t);
  }

  /** Updating the stored row `i` to an entity that fits the columns, with the
      same key and an e-mail no other row has, and committing, replaces exactly
      that row. */
  lemma UpdateThenCommitReplaces(u: State, e: Candidate, i: nat, newId: Guid)
    requires !HasChanges(u.tracker) && FitsColumns(e)
    requires WellFormed(Visible(u))
    requires i < |Visible(u)| && Visible(u)[i].id == e.id && e.id != EmptyGuid
    requires forall j :: 0 <= j < |Visible(u)| && j != i ==> Visible(u)[j].email != e.email
    ensures var c := CommitAsync(Update(u, e, newId), false);
      && c.value == Success(1)
      && Visible(c.state) == Visible(u)[i := e]
  {
    StagedUpdateReplaces(Visible(u), u.tracker, e, i);
    ReplaceKeepsWellFormed(Visible(u), i, e);
  }

  /** The database refuses an insert wider than its columns: the commit fails
      whatever else is pending, and nothing is written. */
  lemma AddOfUnfitIsRefused(u: State, e: Candidate, newId: Guid, fault: bool)
    requires !FitsColumns(e)
    ensures var c := CommitAsync(Add(u, e, newId), fault);
      c.value.Failure? && Visible(c.state) == Visible(u)
  {
    var a := Add(u, e, newId);
    var e' := e.(id := AssignedKey(e, newId));
    assert Entry(e', Added) in a.tracker;
    var next := Apply(Visible(a), a.tracker);
    assert e' in next;
    assert !ColumnsFit(next);
  }

  /** The database refuses an update wider than its columns: the commit fails
      whatever else is pending, and nothing is written. */
  lemma UpdateOfUnfitIsRefused(u: State, e: Candidate, newId: Guid, fault: bool)
    requires !FitsColumns(e)
    ensures var c := CommitAsync(Update(u, e, newId), fault);
      c.value.Failure? && Visible(c.state) == Visible(u)
  {
    if e.id == EmptyGuid {
      AddOfUnfitIsRefused(u, e, newId, fault);
    } else {
      var a := Update(u, e, newId);
      var rows := Visible(a);
      if HasRow(rows, e.id) {
        ModifiedIsApplied(rows, a.tracker, e);
        assert e in Apply(rows, a.tracker);
        assert !ColumnsFit(Apply(rows, a.tracker));
      } else {
        assert Lookup(a.tracker, e.id).value in a.tracker;
        assert !TargetsExist(rows, a.tracker);
      }
    }
  }
}

=== FILE: mapping.dfy ===
/** The by-name mapping between `CandidateDto` and `Candidate`. The identifier
    and the two timestamps exist only on the entity: `ToEntity` leaves them at
    their defaults and `ToDto` drops them. Nothing is normalised on the way. */
module Mapping {
  import opened Wrappers
  import opened Text
  import opened Validation
  import opened Domain
  import opened Dtos

  /** `dto.ToEntity()`. */
  function ToEntity(d: CandidateDto): (c: Candidate)
    ensures c.id == EmptyGuid && c.createdAt == DefaultDateTime && c.updatedAt == None
  {
    Candidate(EmptyGuid, d.firstName, d.lastName, d.email, d.phoneNumber,
              d.callTimePreference, d.linkedInUrl, d.gitHubUrl, d.comments,
              DefaultDateTime, None)
  }

  /** `entity.ToDto()`: the eight shared members copied by name. */
  function ToDto(c: Candidate): (d: CandidateDto)
    ensures d.firstName == c.firstName && d.lastName == c.lastName && d.email == c.email
    ensures d.phoneNumber == c.phoneNumber && d.callTimePreference == c.callTimePreference
    ensures d.linkedInUrl == c.linkedInUrl && d.gitHubUrl == c.gitHubUrl && d.comments == c.comments
  {
    CandidateDto(c.firstName, c.lastName, c.email, c.phoneNumber,
                 c.callTimePreference, c.linkedInUrl, c.gitHubUrl, c.comments)
  }

  /** The entity with the fields the mapping ignores reset to their defaults. */
  function WithoutBookkeeping(c: Candidate): Candidate {
    c.(id := EmptyGuid, createdAt := DefaultDateTime, updatedAt := None)
  }

  /** Mapping a DTO to an entity and back gives the DTO unchanged. */
  lemma DtoRoundTrip(d: CandidateDto)
    ensures ToDto(ToEntity(d)) == d
  {
  }

  /** Mapping an entity to a DTO and back keeps the eight shared fields and
      resets the identifier and the timestamps. */
  lemma EntityRoundTrip(c: Candidate)
    ensures ToEntity(ToDto(c)) == WithoutBookkeeping(c)
  {
  }

  /** Entities that differ only in identifier or timestamps map to the same
      DTO; entities that map to the same DTO differ at most there. */
  lemma ToDtoIgnoresBookkeeping(c: Candidate, c': Candidate)
    ensures ToDto(c) == ToDto(c') <==> WithoutBookkeeping(c) == WithoutBookkeeping(c')
  {
    if ToDto(c) == ToDto(c') {
      EntityRoundTrip(c);
      EntityRoundTrip(c');
    }
  }

  /** The entity's annotations are the stricter ones: a valid entity maps to a
      valid DTO. */
  lemma ValidEntityGivesValidDto(c: Candidate, isEmail: string -> bool)
    requires IsValid(c, isEmail)
    ensures IsValidDto(ToDto(c), isEmail)
  {
    forall m: Member ensures DtoMemberValid(ToDto(c), m, isEmail) {
      assert MemberValid(c, m, isEmail);
    }
  }

  /** ... but not the other way round: a DTO with a 101-character first name
      passes the DTO's checks, yet its entity breaks `[MaxLength(100)]`. */
  lemma ValidDtoMayGiveInvalidEntity(isEmail: string -> bool)
    requires isEmail("a@b.com")
    ensures var d := CandidateDto(seq(101, i => 'a'), "Lee", "a@b.com", "+15551234567", None, None, None, None);
      IsValidDto(d, isEmail) && !IsValid(ToEntity(d), isEmail)
  {
    var d := CandidateDto(seq(101, i => 'a'), "Lee", "a@b.com", "+15551234567", None, None, None, None);
    LongNameDtoValid(d, isEmail);
    assert !MemberValid(ToEntity(d), FirstName, isEmail);
  }

  /** The DTO of the example above passes every DTO check. */
  lemma LongNameDtoValid(d: CandidateDto, isEmail: string -> bool)
    requires d.firstName == seq(101, i => 'a') && d.lastName == "Lee" && d.email == "a@b.com"
    requires d.phoneNumber == "+15551234567" && isEmail(d.email)
    ensures IsValidDto(d, isEmail)
  {
    assert DtoMemberValid(d, FirstName, isEmail) by { assert !IsWhiteSpace(d.firstName[0]); }
    assert DtoMemberValid(d, LastName, isEmail) by { assert !IsWhiteSpace(d.lastName[0]); }
    assert DtoMemberValid(d, Email, isEmail) by { assert !IsWhiteSpace(d.email[0]); }
    assert DtoMemberValid(d, PhoneNumber, isEmail) by { ExamplePhoneValid(d.phoneNumber); }
    forall m ensures DtoMemberValid(d, m, isEmail) {
      if m.LinkedInUrl? || m.GitHubUrl? || m.Comments? {
      }
    }
  }

  /** The example's phone number passes `[Required]`, `[MaxLength(20)]` and
      the phone pattern. */
  lemma ExamplePhoneValid(p: string)
    requires p == "+15551234567"
    ensures !IsBlank(p) && Utf16Length(p) <= MaxPhoneLength && MatchesPhonePattern(p)
  {
    assert MatchesPhonePattern(p) by {
      assert PhoneBody(p) == "15551234567";
    }
    PhonePatternBoundsLength(p);
    assert !IsWhiteSpace(p[0]);
  }
}

=== FILE: text.dfy ===
/** The string primitives the service and the validators rely on: `string.Trim`,
    `string.ToLowerInvariant` (and `ToLower`, which behaves the same on the
    ASCII letters modelled here) and the blank test of the `Required` attribute. */
module Text {

  /** `char.IsWhiteSpace`: the Unicode space separators, the line and paragraph
      separators, and the control characters U+0009..U+000D, U+0085. */
  predicate IsWhiteSpace(c: char) {
    || ('\t' <= c <= '\r')
    || c == ' '
    || c == '\U{0085}'
    || c == '\U{00A0}'
    || c == '\U{1680}'
    || ('\U{2000}' <= c <= '\U{200A}')
    || c == '\U{2028}'
    || c == '\U{2029}'
    || c == '\U{202F}'
    || c == '\U{205F}'
    || c == '\U{3000}'
  }

  /** Every character is white space (the empty string included). */
  predicate IsBlank(s: string) {
    forall i :: 0 <= i < |s| ==> IsWhiteSpace(s[i])
  }

  /** Neither end of `s` is white space. */
  predicate IsTrimmed(s: string) {
    s == [] || (!IsWhiteSpace(s[0]) && !IsWhiteSpace(s[|s| - 1]))
  }

  /** The length of the white-space run that starts `s`. */
  function LeadingWhiteSpace(s: string): (n: nat)
    ensures n <= |s|
    ensures IsBlank(s[..n])
    ensures n < |s| ==> !IsWhiteSpace(s[n])
  {
    if |s| == 0 || !IsWhiteSpace(s[0]) then 0 else 1 + LeadingWhiteSpace(s[1..])
  }

  /** The length of the white-space run that ends `s`. */
  function TrailingWhiteSpace(s: string): (n: nat)
    ensures n <= |s|
    ensures IsBlank(s[|s| - n..])
    ensures n < |s| ==> !IsWhiteSpace(s[|s| - 1 - n])
  {
    if |s| == 0 || !IsWhiteSpace(s[|s| - 1]) then 0
    else
      var n := TrailingWhiteSpace(s[..|s| - 1]);
      var tail := s[|s| - (n + 1)..];
      assert IsBlank(tail) by {
        forall i | 0 <= i < |tail| ensures IsWhiteSpace(tail[i]) {
          if i < n {
            assert tail[i] == s[..|s| - 1][|s| - 1 - n..][i];
          }
        }
      }
      n + 1
  }

  function TrimStart(s: string): string {
    s[LeadingWhiteSpace(s)..]
  }

  function TrimEnd(s: string): string {
    s[..|s| - TrailingWhiteSpace(s)]
  }

  /** `string.Trim()`: drops the white space at both ends; see TrimKeepsMiddle
      for what it keeps. */
  function Trim(s: string): (r: string)
    ensures IsTrimmed(r)
    ensures |r| <= |s|
  {
    TrimShape(s);
    TrimEnd(TrimStart(s))
  }

  /** Trimming removes a blank run from each end and nothing else, and leaves
      nothing exactly when the string is blank. */
  lemma TrimKeepsMiddle(s: string)
    ensures Trim(s) == [] <==> IsBlank(s)
    ensures exists k {:trigger s[..k]} :: 0 <= k <= |s| - |Trim(s)| && IsBlank(s[..k])
              && Trim(s) == s[k..k + |Trim(s)|] && IsBlank(s[k + |Trim(s)|..])
  {
    TrimShape(s);
  }

  /** What trimming both ends leaves: the middle of `s`, between two blank runs. */
  lemma TrimShape(s: string)
    ensures var r := TrimEnd(TrimStart(s));
      && IsTrimmed(r)
      && (r == [] <==> IsBlank(s))
      && exists k {:trigger s[..k]} :: 0 <= k <= |s| - |r| && IsBlank(s[..k])
           && r == s[k..k + |r|] && IsBlank(s[k + |r|..])
  {
    var k := LeadingWhiteSpace(s);
    var t := s[k..];
    var n := TrailingWhiteSpace(t);
    var r := t[..|t| - n];
    assert r == TrimEnd(TrimStart(s));
    assert r == s[k..k + |r|];
    assert t[|t| - n..] == s[k + |r|..];
    if r == [] {
      // a non-blank character after the leading run would survive the trailing trim
      assert k == |s|;
      assert s[..k] == s;
    } else {
      assert r[0] == t[0];
      assert r[|r| - 1] == t[|t| - 1 - n];
      assert !IsBlank(s) by {
        assert s[k] == r[0];
      }
    }
  }

  /** A character outside the Basic Multilingual Plane: .NET stores it as a
      surrogate pair, two UTF-16 code units. */
  predicate IsAstral(c: char) {
    c as int >= 0x1_0000
  }

  /** `string.Length`: the number of UTF-16 code units, which is what
      `[MaxLength]` and an `nvarchar(n)` column count. */
  function Utf16Length(s: string): (n: nat)
    ensures |s| <= n <= 2 * |s|
  {
    if s == [] then 0 else (if IsAstral(s[0]) then 2 else 1) + Utf16Length(s[1..])
  }

  /** Without astral characters, the UTF-16 length is the number of characters. */
  lemma {:induction false} Utf16LengthOfBmp(s: string)
    requires forall i :: 0 <= i < |s| ==> !IsAstral(s[i])
    ensures Utf16Length(s) == |s|
  {
    if s != [] {
      assert forall i :: 0 <= i < |s[1..]| ==> s[1..][i] == s[i + 1];
      Utf16LengthOfBmp(s[1..]);
    }
  }

  /** Astral characters count twice. */
  lemma {:induction false} Utf16LengthOfAstral(s: string)
    requires forall i :: 0 <= i < |s| ==> IsAstral(s[i])
    ensures Utf16Length(s) == 2 * |s|
  {
    if s != [] {
      assert forall i :: 0 <= i < |s[1..]| ==> s[1..][i] == s[i + 1];
      Utf16LengthOfAstral(s[1..]);
    }
  }

  /** Lower-cases the ASCII letters; every other character is left alone. */
  function LowerChar(c: char): char {
    if 'A' <= c <= 'Z' then (c as int + 32) as char else c
  }

  /** `string.ToLowerInvariant()`, restricted to ASCII case mapping. */
  function ToLowerInvariant(s: string): (r: string)
    ensures |r| == |s|
    ensures forall i :: 0 <= i < |s| ==> r[i] == LowerChar(s[i])
  {
    seq(|s|, i requires 0 <= i < |s| => LowerChar(s[i]))
  }

  /** Lower-casing twice is lower-casing once. */
  lemma LowerIdempotent(s: string)
    ensures ToLowerInvariant(ToLowerInvariant(s)) == ToLowerInvariant(s)
  {
    var once := ToLowerInvariant(s);
    var twice := ToLowerInvariant(once);
    forall i | 0 <= i < |s| ensures twice[i] == once[i] {
      assert once[i] == LowerChar(s[i]);
    }
  }

  /** Trimming a string whose ends are not white space changes nothing. */
  lemma TrimOfTrimmed(s: string)
    requires IsTrimmed(s)
    ensures Trim(s) == s
  {
    assert LeadingWhiteSpace(s) == 0;
    assert TrailingWhiteSpace(s) == 0;
  }

  /** Trimming a string made of a blank run, a trimmed middle and a blank run
      gives the middle. */
  lemma TrimAroundTrimmed(a: string, m: string, b: string)
    requires IsBlank(a) && IsBlank(b) && IsTrimmed(m) && m != []
    ensures Trim(a + m + b) == m
  {
    var s := a + m + b;
    LeadingOfBlankRun(a, m + b);
    assert a + (m + b) == s;
    assert TrimStart(s) == m + b;
    TrailingOfBlankRun(m, b);
  }

  /** A blank run followed by a non-blank character is the leading white space. */
  lemma {:induction false} LeadingOfBlankRun(a: string, rest: string)
    requires IsBlank(a) && rest != [] && !IsWhiteSpace(rest[0])
    ensures LeadingWhiteSpace(a + rest) == |a|
  {
    if a != [] {
      assert (a + rest)[1..] == a[1..] + rest;
      LeadingOfBlankRun(a[1..], rest);
    }
  }

  /** A blank run preceded by a non-blank character is the trailing white space. */
  lemma {:induction false} TrailingOfBlankRun(rest: string, b: string)
    requires IsBlank(b) && rest != [] && !IsWhiteSpace(rest[|rest| - 1])
    ensures TrailingWhiteSpace(rest + b) == |b|
  {
    if b != [] {
      assert (rest + b)[..|rest + b| - 1] == rest + b[..|b| - 1];
      TrailingOfBlankRun(rest, b[..|b| - 1]);
    }
  }

  /** Trim is idempotent. */
  lemma TrimIdempotent(s: string)
    ensures Trim(Trim(s)) == Trim(s)
  {
    TrimOfTrimmed(Trim(s));
  }

  /** Lower-casing neither creates nor removes white space, so the ends of a
      trimmed string stay trimmed. */
  lemma LowerKeepsTrimmed(s: string)
    requires IsTrimmed(s)
    ensures IsTrimmed(ToLowerInvariant(s))
  {
  }
}

=== FILE: unit_of_work.dfy ===
/** The unit of work: one database context, its change tracker, the repositories
    it has handed out, and the transaction `CommitAsync` saves in. */
module UnitOfWork {
  import opened Wrappers
  import opened Domain
  import opened ChangeTracker

  /** A repository instance: the entity type it serves and which creation it
      came from, so that two instances are told apart. */
  datatype RepoHandle = RepoHandle(entityType: string, serial: nat)

  /** Everything one unit of work sees.
      `committed`: the rows other connections see.
      `transaction`: the rows as written inside the open database transaction, if one is open.
      `repositories`: the repository cache, keyed by entity type. */
  datatype State = State(
    committed: seq<Candidate>,
    transaction: Option<seq<Candidate>>,
    tracker: Tracker,
    repositories: map<string, RepoHandle>)

  /** A result together with the unit of work after the call. */
  datatype Reply<+T> = Reply(state: State, value: T)

  /** The rows this context reads: those of its open transaction, if any. */
  function Visible(u: State): seq<Candidate> {
    if u.transaction.Some? then u.transaction.value else u.committed
  }

  /** The repository cache hands out each instance once: every cached handle
      serves the type it is cached under, and no two share a serial. */
  predicate RegistryWellFormed(reg: map<string, RepoHandle>) {
    && (forall k :: k in reg ==> reg[k].entityType == k && reg[k].serial < |reg|)
    && (forall a, b :: a in reg && b in reg && a != b ==> reg[a].serial != reg[b].serial)
  }

  /** `Repository<T>()`: the cached repository for `entityType`, or a new one,
      cached before it is returned. */
  function Repository(u: State, entityType: string): (r: Reply<RepoHandle>)
    ensures entityType in r.state.repositories && r.state.repositories[entityType] == r.value
    ensures r.value.entityType == entityType || entityType in u.repositories
    ensures entityType in u.repositories ==> r.state == u && r.value == u.repositories[entityType]
    ensures r.state.repositories.Keys == u.repositories.Keys + {entityType}
    ensures forall k :: k in u.repositories ==> r.state.repositories[k] == u.repositories[k]
    ensures r.state == u.(repositories := r.state.repositories)
    ensures Visible(r.state) == Visible(u) && r.state.tracker == u.tracker
  {
    if entityType in u.repositories then
      Reply(u, u.repositories[entityType])
    else
      var h := RepoHandle(entityType, |u.repositories|);
      Reply(u.(repositories := u.repositories[entityType := h]), h)
  }

  /** Asking twice for the same type gives the same instance and changes
      nothing the second time. */
  lemma RepositoryIsMemoized(u: State, entityType: string)
    ensures var first := Repository(u, entityType);
      Repository(first.state, entityType) == Reply(first.state, first.value)
  {
  }

  /** A repository created for a new type is an instance no other type has,
      and the cache stays well formed. */
  lemma {:induction false} NewRepositoryIsFresh(u: State, entityType: string)
    requires RegistryWellFormed(u.repositories)
    requires entityType !in u.repositories
    ensures var r := Repository(u, entityType);
      && RegistryWellFormed(r.state.repositories)
      && forall k :: k in u.repositories ==> u.repositories[k] != r.value
  {
    var r := Repository(u, entityType);
    var reg := r.state.repositories;
    assert |reg| == |u.repositories| + 1 by {
      assert reg.Keys == u.repositories.Keys + {entityType};
    }
    assert forall k :: k in u.repositories ==> u.repositories[k].serial != r.value.serial;
  }

  /** `BeginTransactionAsync()`: a transaction that starts from the committed rows. */
  function BeginTransaction(u: State): (r: State)
    requires u.transaction.None?
    ensures r.transaction.Some? && Visible(r) == Visible(u)
  {
    u.(transaction := Some(u.committed))
  }

  /** `transaction.CommitAsync()`: what was written inside becomes the committed rows. */
  function CommitTransaction(u: State): (r: State)
    requires u.transaction.Some?
    ensures r.transaction.None? && Visible(r) == Visible(u)
  {
    u.(committed := u.transaction.value, transaction := None)
  }

  /** `transaction.RollbackAsync()`: what was written inside is discarded. */
  function RollbackTransaction(u: State): (r: State)
    requires u.transaction.Some?
    ensures r.transaction.None? && r.committed == u.committed
  {
    u.(transaction := None)
  }

  /** `CommitAsync()`. Inside a transaction the caller opened, it only saves.
      Otherwise it opens a transaction, saves and commits; when the save fails
      it rolls the transaction back and raises the save's error. `fault` says
      whether the database fails on its own. */
  function CommitAsync(u: State, fault: bool): (r: Reply<Result<nat, SaveError>>)
    ensures r.value.Failure? <==> fault || !TargetsExist(Visible(u), u.tracker) || !WellFormed(Apply(Visible(u), u.tracker))
    ensures r.value.Failure? ==> r.state == u && r.value.error == SaveChanges(Visible(u), u.tracker, fault).error
    ensures r.value.Success? ==>
              && Visible(r.state) == Apply(Visible(u), u.tracker)
              && WellFormed(Visible(r.state))
              && !HasChanges(r.state.tracker)
              && r.value.value == PendingCount(u.tracker)
    ensures r.state.transaction.Some? <==> u.transaction.Some?
    ensures u.transaction.Some? ==> r.state.committed == u.committed
    ensures r.state.repositories == u.repositories
  {
    if u.transaction.Some? then
      (match SaveChanges(u.transaction.value, u.tracker, fault)
       case Failure(err) => Reply(u, Failure(err))
       case Success(saved) =>
         Reply(u.(transaction := Some(saved.rows), tracker := saved.tracker), Success(saved.count)))
    else
      var began := BeginTransaction(u);
      match SaveChanges(began.transaction.value, began.tracker, fault)
      case Failure(err) => Reply(RollbackTransaction(began), Failure(err))
      case Success(saved) =>
        var written := began.(transaction := Some(saved.rows), tracker := saved.tracker);
        Reply(CommitTransaction(written), Success(saved.count))
  }

  /** With nothing pending and a healthy database, committing writes nothing
      and reports zero rows. */
  lemma CommitNothingPending(u: State)
    requires !HasChanges(u.tracker)
    requires WellFormed(Visible(u))
    ensures CommitAsync(u, false).value == Success(0)
    ensures Visible(CommitAsync(u, false).state) == Visible(u)
  {
    ApplyNothingPending(Visible(u), u.tracker);
  }

  /** A second commit straight after a successful one writes nothing. */
  lemma CommitTwice(u: State, fault: bool)
    requires CommitAsync(u, fault).value.Success?
    ensures var once := CommitAsync(u, fault).state;
      && CommitAsync(once, false).value == Success(0)
      && Visible(CommitAsync(once, false).state) == Visible(once)
  {
    CommitNothingPending(CommitAsync(u, fault).state);
  }

  /** What `Rollback()` does to one entry's state: a modification or deletion
      is forgotten, an insertion stops being tracked, the rest is kept. */
  function RollbackState(s: EntityState): (r: EntityState)
    ensures !IsPending(r)
    ensures !IsPending(s) ==> r == s
  {
    match s
    case Modified => Unchanged
    case Deleted => Unchanged
    case Added => Detached
    case Detached => s
    case Unchanged => s
  }

  /** Every entry's state rolled back. The entries keep the entities they
      hold: original values are not part of the tracker, so the values EF
      copies back into a Modified entity are not modelled. */
  function RolledBack(t: Tracker): (r: Tracker)
    ensures |r| == |t|
    ensures forall i :: 0 <= i < |t| ==> r[i] == Entry(t[i].entity, RollbackState(t[i].state))
  {
    seq(|t|, i requires 0 <= i < |t| => Entry(t[i].entity, RollbackState(t[i].state)))
  }

  /** `Rollback()`: returns at once when nothing is pending, otherwise walks the
      tracker's entries and rolls back each one. It never fails. */
  method Rollback(u: State) returns (r: State)
    ensures r == u.(tracker := r.tracker)
    ensures r.tracker == RolledBack(u.tracker)
    ensures |r.tracker| == |u.tracker|
    ensures forall i :: 0 <= i < |u.tracker| ==>
              r.tracker[i].entity == u.tracker[i].entity && r.tracker[i].state == RollbackState(u.tracker[i].state)
    ensures !HasChanges(r.tracker)
    ensures !HasChanges(u.tracker) ==> r == u
  {
    if !HasChanges(u.tracker) {
      RollbackQuickExitAgrees(u.tracker);
      return u;
    }
    var t := u.tracker;
    var i := 0;
    while i < |t|
      invariant 0 <= i <= |t|
      invariant |t| == |u.tracker|
      invariant forall j :: 0 <= j < i ==> t[j] == Entry(u.tracker[j].entity, RollbackState(u.tracker[j].state))
      invariant forall j :: i <= j < |t| ==> t[j] == u.tracker[j]
    {
      t := t[i := Entry(t[i].entity, RollbackState(t[i].state))];
      i := i + 1;
    }
    r := u.(tracker := t);
  }

  /** The quick exit agrees with the walk: with nothing pending, rolling every
      entry back changes nothing. */
  lemma RollbackQuickExitAgrees(t: Tracker)
    requires !HasChanges(t)
    ensures RolledBack(t) == t
  {
    forall i | 0 <= i < |t| ensures RolledBack(t)[i] == t[i] {
      assert !IsPending(t[i].state);
    }
  }

  /** Rolling back twice is rolling back once. */
  lemma RollbackIdempotent(t: Tracker)
    ensures RolledBack(RolledBack(t)) == RolledBack(t)
  {
    RollbackQuickExitAgrees(RolledBack(t));
  }

  /** After a rollback, a commit writes nothing. */
  lemma CommitAfterRollbackWritesNothing(u: State)
    requires WellFormed(Visible(u))
    ensures var rolled := u.(tracker := RolledBack(u.tracker));
      && CommitAsync(rolled, false).value == Success(0)
      && Visible(CommitAsync(rolled, false).state) == Visible(u)
  {
    CommitNothingPending(u.(tracker := RolledBack(u.tracker)));
  }
}

=== FILE: validation.dfy ===
/** The data-annotation rules the entity and the DTO share, and how the .NET
    validator applies them to one property: `Required` is checked first and,
    when it fails, is the only error reported for that property; every other
    attribute is then checked and each failing one reported; a null value
    passes every attribute except `Required`. */
module Validation {
  import opened Wrappers
  import opened Text

  /** The properties that carry validation attributes. */
  datatype Member = FirstName | LastName | Email | PhoneNumber | LinkedInUrl | GitHubUrl | Comments

  /** The attributes used: `[Required]`, `[MaxLength(n)]`, `[EmailAddress]` and
      `[RegularExpression(@"^\+?[1-9]\d{1,14}$")]`. */
  datatype Rule = Required | MaxLength(limit: nat) | EmailAddress | PhonePattern

  /** One entry of the validator's result list: which property broke which rule. */
  datatype ValidationError = ValidationError(member: Member, rule: Rule)

  predicate IsAsciiDigit(c: char) {
    '0' <= c <= '9'
  }

  /** What follows the optional leading `+`. */
  function PhoneBody(s: string): string {
    if |s| > 0 && s[0] == '+' then s[1..] else s
  }

  /** The phone pattern `^\+?[1-9]\d{1,14}$`, matched against the whole string:
      an optional `+`, a digit 1-9, then 1 to 14 further digits. */
  predicate MatchesPhonePattern(s: string) {
    var body := PhoneBody(s);
    && 2 <= |body| <= 15
    && '1' <= body[0] <= '9'
    && forall i :: 1 <= i < |body| ==> IsAsciiDigit(body[i])
  }

  /** A left-to-right scan of `s` that runs the phone pattern as the regular
      expression engine would: optional sign, leading digit, a bounded digit run. */
  method MatchPhone(s: string) returns (ok: bool)
    ensures ok <==> MatchesPhonePattern(s)
  {
    var start := 0;
    if |s| > 0 && s[0] == '+' {
      start := 1;
    }
    assert s[start..] == PhoneBody(s);
    if start >= |s| || !('1' <= s[start] <= '9') {
      return false;
    }
    var i := start + 1;
    while i < |s|
      invariant start + 1 <= i <= |s|
      invariant i - start <= 15
      invariant forall j :: start + 1 <= j < i ==> IsAsciiDigit(s[j])
    {
      if !IsAsciiDigit(s[i]) {
        assert s[start..][i - start] == s[i];
        return false;
      }
      if i - start == 15 {
        assert |PhoneBody(s)| > 15;
        return false;
      }
      i := i + 1;
    }
    ok := i - start >= 2;
  }

  /** The phone pattern admits at most 16 characters, all ASCII, so the `[MaxLength(20)]`
      beside it can only fire on strings the pattern rejects as well. */
  lemma PhonePatternBoundsLength(s: string)
    requires MatchesPhonePattern(s)
    ensures |s| <= 16 && Utf16Length(s) == |s|
  {
    Utf16LengthOfBmp(s);
  }

  /** Whether the non-empty value `s` satisfies `rule`. `isEmail` stands for the
      `[EmailAddress]` format check of the runtime library. */
  predicate Satisfies(rule: Rule, s: string, isEmail: string -> bool) {
    match rule
    case Required => !IsBlank(s)  // the attribute tests `s.Trim().Length != 0`; see RequiredIsTrimTest
    case MaxLength(n) => Utf16Length(s) <= n
    case EmailAddress => isEmail(s)
      // `RegularExpressionAttribute` accepts the empty string
    case PhonePattern => s == [] || MatchesPhonePattern(s)
  }

  /** `s` satisfies every rule of `rules`. */
  predicate AllSatisfied(rules: seq<Rule>, s: string, isEmail: string -> bool) {
    rules == [] || (Satisfies(rules[0], s, isEmail) && AllSatisfied(rules[1..], s, isEmail))
  }

  /** Two rules hold together when each holds. */
  lemma AllSatisfiedPair(a: Rule, b: Rule, s: string, isEmail: string -> bool)
    ensures AllSatisfied([a, b], s, isEmail) <==> Satisfies(a, s, isEmail) && Satisfies(b, s, isEmail)
  {
    assert AllSatisfied([b], s, isEmail) <==> Satisfies(b, s, isEmail) by {
      assert [b][0] == b && [b][1..] == [];
    }
    assert AllSatisfied([a, b], s, isEmail) <==> Satisfies(a, s, isEmail) && AllSatisfied([b], s, isEmail) by {
      assert [a, b][0] == a && [a, b][1..] == [b];
    }
  }

  /** The `Required` attribute rejects a string whose `Trim()` is empty: that is
      exactly a blank string. */
  lemma RequiredIsTrimTest(s: string, isEmail: string -> bool)
    ensures Satisfies(Required, s, isEmail) <==> |Trim(s)| != 0
  {
    TrimKeepsMiddle(s);
  }

  /** One error per rule of `rules` that `s` breaks, in attribute order. */
  function Failing(m: Member, s: string, rules: seq<Rule>, isEmail: string -> bool): (r: seq<ValidationError>)
    ensures |r| <= |rules|
    ensures forall e :: e in r <==> e.member == m && e.rule in rules && !Satisfies(e.rule, s, isEmail)
    ensures r == [] <==> AllSatisfied(rules, s, isEmail)
  {
    if rules == [] then []
    else
      (if Satisfies(rules[0], s, isEmail) then [] else [ValidationError(m, rules[0])])
      + Failing(m, s, rules[1..], isEmail)
  }

  /** The errors the validator reports for one property holding `value`
      (`None` for null). When `required` and the value is null or blank, the
      single `Required` error hides the other rules. */
  function PropertyErrors(m: Member, value: Option<string>, required: bool, rules: seq<Rule>,
                          isEmail: string -> bool): (r: seq<ValidationError>)
    ensures NamesOnly(r, m)
    ensures required && (value.None? || IsBlank(value.value)) ==> r == [ValidationError(m, Required)]
    ensures r == [] <==>
              && (required ==> value.Some? && !IsBlank(value.value))
              && (value.Some? ==> AllSatisfied(rules, value.value, isEmail))
  {
    if required && (value.None? || !Satisfies(Required, value.value, isEmail)) then
      [ValidationError(m, Required)]
    else if value.None? then
      []
    else
      Failing(m, value.value, rules, isEmail)
  }

  /** Every error in `errors` is about property `m`. */
  predicate NamesOnly(errors: seq<ValidationError>, m: Member) {
    forall e :: e in errors ==> e.member == m
  }

  /** Some error in `errors` names property `m`. */
  predicate HasError(errors: seq<ValidationError>, m: Member) {
    exists e :: e in errors && e.member == m
  }

  /** An error list built property by property names `m` iff one of its parts does. */
  lemma HasErrorAppend(a: seq<ValidationError>, b: seq<ValidationError>, m: Member)
    ensures HasError(a + b, m) <==> HasError(a, m) || HasError(b, m)
  {
    if HasError(a + b, m) {
      var e :| e in a + b && e.member == m;
      assert e in a || e in b;
    }
    if HasError(a, m) {
      var e :| e in a && e.member == m;
      assert e in a + b;
    }
    if HasError(b, m) {
      var e :| e in b && e.member == m;
      assert e in a + b;
    }
  }

  /** The errors of property `m` name `m` exactly when there are any. */
  lemma HasErrorOfProperty(m: Member, m': Member, value: Option<string>, required: bool,
                           rules: seq<Rule>, isEmail: string -> bool)
    ensures var r := PropertyErrors(m, value, required, rules, isEmail);
      HasError(r, m') <==> m == m' && r != []
  {
    var r := PropertyErrors(m, value, required, rules, isEmail);
    if r != [] {
      assert r[0] in r;
    }
  }
}

=== FILE: wrappers.dfy ===
/** Option and Result: the model's stand-ins for C# `null` results and thrown exceptions. */
module Wrappers {

  /** An absent value (`null` in the source) or a present one. */
  datatype Option<+T> = None | Some(value: T) {

    /** The value, or `default` when absent. */
    function GetOr(default: T): T {
      match this
      case Some(v) => v
      case None => default
    }
  }

  /** The outcome of an operation that can throw: a value, or the error it raised. */
  datatype Result<+R, +E> = Success(value: R) | Failure(error: E) {

    predicate IsFailure() {
      Failure?
    }
  }
}
